=== FILE: README.md ===
# Pharmacy analytics assistant, modelled in Dafny

The assistant answers questions about pharmacy sales. A conversational agent
keeps the dialogue history and renders it into the system prompt. It lets a
chat model call four tools:

- `generate_sql`: an SQL-writing model, whose answer the agent runs at once
- `execute_sql`: a guarded query executor
- `create_visualization`: a chart builder
- `search_knowledge`: a retriever over a vector knowledge base

The agent records every tool result in the history, collects the figures and
asks the model for the final answer.

The model covers five parts:

| module | file | what it models |
|---|---|---|
| `SqlExecutor` | `sql_executor.dfy` | the keyword denylist, the guarded entry point and the store call |
| `SqlAgent` | `sql_agent.dfy` | SQL generation and the Markdown fence cleaner |
| `RagAgent` | `rag_agent.dfy` | retrieval, the numbered context block and its two sentinel texts |
| `Visualizer` | `visualizer.dfy` | chart-type checks and the per-kind mapping of columns to chart roles |
| `ConversationalAgent` | `conversational_agent.dfy` | history, prompt rendering, tool schemas, the total dispatcher, auto-execution of generated SQL, the tool loop, figure collection and the error reply |

`Wrappers` (`Option`, `Result`), `Records` (row values) and `Text` (Python's
`startswith`, `in`, `upper`, `capitalize`, `strip`, `replace`, `join` and
`str` of an integer) are shared.

Every Python function that may raise returns a `Result`. `Err(msg)` stands for
the exception, and `msg` for what `str(e)` gives. Everything the code reaches
over the network or the disk is a function-typed parameter:

- the chat model and the SQL model
- the database store
- the embedding service and the nearest-neighbour query
- `json.loads` and `json.dumps`
- the one-decimal rendering of a percentage

The agent's mutable history is an immutable `Agent` value. `chat` returns the
next agent along with the reply.

`Chat`, `RunExchange` and `RunTools` are the loop-based methods that follow
`chat` and `_chat_openai` statement by statement. Each is proved equal to its
recursive reference definition: `Respond`, `Converse` and `ProcessCalls`. The
lemmas state their properties about those definitions.

## Model

| member | source | states |
|---|---|---|
| SqlExecutor.FirstForbidden | pharmacy-rag-assistant/tools/sql_executor.py:28-32 | the keyword found is one of the list and occurs in the text; none is found exactly when no listed keyword occurs |
| SqlExecutor.ValidateSql | pharmacy-rag-assistant/tools/sql_executor.py:20-32 | a query passes exactly when none of the nine keywords is a substring of its upper-cased text |
| SqlExecutor.ExecuteSql | pharmacy-rag-assistant/tools/sql_executor.py:8-17 | a store failure is re-raised with the execution-error prefix; otherwise one mapping per row, same count, same order |
| SqlExecutor.ExecuteSafeSql | pharmacy-rag-assistant/tools/sql_executor.py:34-38 | a query containing a forbidden keyword is refused with the fixed message; an accepted query gives exactly what the executor gives |
| SqlExecutor.RefusedQueryIgnoresStore | pharmacy-rag-assistant/tools/sql_executor.py:34-36 | a refused query's outcome is the same for any two stores, so the store is never consulted |
| SqlExecutor.AcceptedQueryPassesRowsThrough | pharmacy-rag-assistant/tools/sql_executor.py:10-14 | an accepted query yields as many rows as the store, each the store row's columns |
| SqlExecutor.ValidateSqlCaseInsensitive | pharmacy-rag-assistant/tools/sql_executor.py:26 | validating the upper-cased query gives the same answer as validating the query |
| SqlExecutor.ValidateSqlMonotone | pharmacy-rag-assistant/tools/sql_executor.py:28-30 | a refused text stays refused with any text put before and after it |
| SqlExecutor.ValidateSqlAcceptsPlainSelect | pharmacy-rag-assistant/tools/sql_executor.py:20-32 | `SELECT * FROM sales` passes the guard |
| SqlExecutor.ValidateSqlRefusesKeywordInIdentifier | pharmacy-rag-assistant/tools/sql_executor.py:21-30 | `select created_at from t` is refused: the filter is lexical, and CREATED contains CREATE |
| SqlExecutor.ValidateSqlRefusesAppendedDrop | pharmacy-rag-assistant/tools/sql_executor.py:28-30 | any statement followed by `; DROP TABLE` and a table name is refused |
| SqlAgent.RemovalLeavesNoFence | pharmacy-rag-assistant/agents/sql_agent.py:55 | removing every fence leaves no fence behind, even where backticks become adjacent |
| SqlAgent.Unfence | pharmacy-rag-assistant/agents/sql_agent.py:53-55 | removing fences then trimming gives a trimmed text, no longer than the input, without any fence |
| SqlAgent.CleanSql | pharmacy-rag-assistant/agents/sql_agent.py:51-57 | text not starting with a fence is returned unchanged; fenced text comes back trimmed and fence-free; never longer |
| SqlAgent.CleanSqlIdempotent | pharmacy-rag-assistant/agents/sql_agent.py:51-57 | cleaning a cleaned query changes nothing |
| SqlAgent.CleanSqlUnwrapsSqlBlock | pharmacy-rag-assistant/agents/sql_agent.py:52-53 | an SQL-tagged block around backtick-free text yields that text trimmed |
| SqlAgent.CleanSqlUnwrapsPlainBlock | pharmacy-rag-assistant/agents/sql_agent.py:54-55 | an untagged block around backtick-free text not starting with `sql` yields that text trimmed |
| SqlAgent.GenerateSql | pharmacy-rag-assistant/agents/sql_agent.py:26-49 | succeeds exactly when the model answers with content; model failures and a missing content become errors with the generation prefix; the query is trimmed and no longer than the answer; a fenced answer loses every fence, an unfenced one comes back exactly as stripped |
| SqlAgent.GenerateSqlUnwrapsFencedAnswer | pharmacy-rag-assistant/agents/sql_agent.py:39-41 | an answer that is an SQL-tagged block with whitespace around it gives the bare query |
| RagAgent.Retrieve | pharmacy-rag-assistant/agents/rag_agent.py:27-44 | succeeds exactly when embedding and ranking succeed and the limit is not negative; the rows are the first min(top_k, all) of the ranking, in order |
| RagAgent.Entries | pharmacy-rag-assistant/agents/rag_agent.py:52-56 | three lines per document |
| RagAgent.HeadingParts | pharmacy-rag-assistant/agents/rag_agent.py:54 | a heading opens with the document number, a dot and the bracket, then the content type, and closes with the parenthesis after the relevance; the digits before the dot read back as the document number |
| RagAgent.EntriesAt | pharmacy-rag-assistant/agents/rag_agent.py:52-56 | document j gives heading j+first, its content and an empty line, at lines 3j, 3j+1, 3j+2 |
| RagAgent.EntriesHeadingAt | pharmacy-rag-assistant/agents/rag_agent.py:52-54 | line 3j is the heading of document j, numbered j+first |
| RagAgent.EntriesContentAt | pharmacy-rag-assistant/agents/rag_agent.py:55 | line 3j+1 is the content of document j |
| RagAgent.EntriesBlankAt | pharmacy-rag-assistant/agents/rag_agent.py:56 | line 3j+2 is the empty line that closes document j |
| RagAgent.Context | pharmacy-rag-assistant/agents/rag_agent.py:51-58 | the header alone when there are no documents; otherwise the header, a newline and the three lines of every document, numbered from 1, joined by newlines |
| RagAgent.SearchKnowledge | pharmacy-rag-assistant/agents/rag_agent.py:23-65 | never fails; the not-found text exactly when no rows; the error text exactly when retrieval fails or a row has NULL content or similarity; otherwise exactly the context block of the retrieved rows |
| RagAgent.SearchKnowledgeListsEveryHit | pharmacy-rag-assistant/agents/rag_agent.py:51-61 | every retrieved document's numbered heading and content occur in the output |
| RagAgent.DefaultSearchListsAtMostThree | pharmacy-rag-assistant/agents/rag_agent.py:23 | with the default limit, at most three documents, the nearest ones in ranking order |
| Visualizer.ParseKind | pharmacy-rag-assistant/tools/visualizer.py:17-57 | a chart type is recognised exactly when it is bar, line, pie or scatter, and names the kind recognised |
| Visualizer.ParseKindName | pharmacy-rag-assistant/tools/visualizer.py:17-57 | every kind's name is recognised as that kind |
| Visualizer.AxisLabels | pharmacy-rag-assistant/tools/visualizer.py:24 | the labels map exactly the two columns, each to its capitalised name |
| Visualizer.CreateVisualization | pharmacy-rag-assistant/tools/visualizer.py:6-66 | empty data is refused first, then an unknown type; success exactly for non-empty data and a known type; the figure keeps kind, data and title and gets the standard layout; pie maps names and values, the others map axes, colour and labels |
| Visualizer.PieIgnoresColor | pharmacy-rag-assistant/tools/visualizer.py:38-44 | a pie chart does not depend on the colour column |
| Visualizer.OnlyLineHasMarkers | pharmacy-rag-assistant/tools/visualizer.py:27-36 | a chart has markers exactly when it is a line chart |
| Visualizer.EmptyDataCheckedFirst | pharmacy-rag-assistant/tools/visualizer.py:14-15 | empty data is refused whatever the chart type |
| ConversationalAgent.ClearHistory | pharmacy-rag-assistant/agents/conversational_agent.py:301-302 | the history becomes empty and the prompt template is kept |
| ConversationalAgent.LineOf | pharmacy-rag-assistant/agents/conversational_agent.py:50-57 | a turn gives at most one transcript line, and none exactly when it is a tool turn |
| ConversationalAgent.LineOfTagged | pharmacy-rag-assistant/agents/conversational_agent.py:54-57 | a user turn's line is `USER: ` followed by its message; an assistant turn's is `AI: ` followed by its text |
| ConversationalAgent.Lines | pharmacy-rag-assistant/agents/conversational_agent.py:50-57 | the transcript has at most one line per turn; `LinesCount` gives the exact number and `LinesAppend` the order |
| ConversationalAgent.LinesTagged | pharmacy-rag-assistant/agents/conversational_agent.py:50-57 | every line of the transcript opens with `USER: ` or `AI: ` |
| ConversationalAgent.LinesAppend | pharmacy-rag-assistant/agents/conversational_agent.py:50-57 | the transcript is built turn by turn: that of a concatenation is the concatenation of transcripts |
| ConversationalAgent.LinesCount | pharmacy-rag-assistant/agents/conversational_agent.py:50-57 | the transcript has one line per user or assistant turn and none for tool turns |
| ConversationalAgent.RenderPrompt | pharmacy-rag-assistant/agents/conversational_agent.py:47-61 | a template that opens with the placeholder gives a prompt that opens with the transcript, its lines joined by newlines |
| ConversationalAgent.PromptSubstitutes | pharmacy-rag-assistant/agents/conversational_agent.py:47-61 | for any text a without the placeholder, braces included, the template a + `{{messages}}` + b renders as a, then the transcript, then the rendering of b, so every occurrence is replaced; when b has no placeholder it is kept as it is |
| ConversationalAgent.ToolTurnsNotRendered | pharmacy-rag-assistant/agents/conversational_agent.py:54-57 | appending a tool turn leaves the prompt unchanged |
| ConversationalAgent.PromptWithoutPlaceholder | pharmacy-rag-assistant/agents/conversational_agent.py:61 | a template without the placeholder is the prompt, whatever the history |
| ConversationalAgent.PromptEndsWithNewUserTurn | pharmacy-rag-assistant/agents/conversational_agent.py:47-61 | a new user turn adds the line `USER: ` + message at the end of the transcript, which replaces the placeholder |
| ConversationalAgent.ToolDefinitions | pharmacy-rag-assistant/agents/conversational_agent.py:63-150 | four tools, in order, each requiring exactly its declared parameters; the chart tool offers the chart-type choice |
| ConversationalAgent.GenerateSqlSchema | pharmacy-rag-assistant/agents/conversational_agent.py:65-81 | `generate_sql` requires only `query_description` |
| ConversationalAgent.ExecuteSqlSchema | pharmacy-rag-assistant/agents/conversational_agent.py:82-98 | `execute_sql` requires only `sql_query` |
| ConversationalAgent.VisualizeSchema | pharmacy-rag-assistant/agents/conversational_agent.py:99-132 | `create_visualization` requires data, chart_type, title, x_column and y_column, and offers the chart-type choice |
| ConversationalAgent.SearchSchema | pharmacy-rag-assistant/agents/conversational_agent.py:133-149 | `search_knowledge` requires only `query` |
| ConversationalAgent.ChartTypeChoicesAreKinds | pharmacy-rag-assistant/agents/conversational_agent.py:111-115 | the chart types offered to the model are exactly those the chart builder accepts |
| ConversationalAgent.LookupIff | pharmacy-rag-assistant/agents/conversational_agent.py:257 | a key is in a result mapping exactly when some entry has it |
| ConversationalAgent.ToPayload | pharmacy-rag-assistant/agents/conversational_agent.py:159-194 | keys are distinct; the status is "error" for a failed or unknown tool and "success" otherwise; a figure key exactly for a chart, holding its figure; an executed generated query carries its row count |
| ConversationalAgent.StatusReportsFailure | pharmacy-rag-assistant/agents/conversational_agent.py:159-194 | every result has a status, and it is "success" exactly when the tool did not fail and was known |
| ConversationalAgent.ShouldAutoExecuteIff | pharmacy-rag-assistant/agents/conversational_agent.py:257 | the agent runs a generated query exactly for a successful `generate_sql` result |
| ConversationalAgent.CarriesFigureIff | pharmacy-rag-assistant/agents/conversational_agent.py:273 | a result has a figure exactly when it came from the chart builder |
| ConversationalAgent.FigureOf | pharmacy-rag-assistant/agents/conversational_agent.py:273-274 | a result contributes at most one figure, exactly when it is a chart, and then its own |
| ConversationalAgent.Visualize | pharmacy-rag-assistant/agents/conversational_agent.py:167-180 | a chart or a failure; a missing `data` fails on "data" and unparsable data with the parser's message; with parsed data and the four other arguments present, the outcome is exactly the chart builder's result for them without a colour column: its figure when it builds one, its failure otherwise |
| ConversationalAgent.Draw | pharmacy-rag-assistant/agents/conversational_agent.py:169-180 | after the data, the first missing argument of chart_type, title, x_column and y_column fails, naming it; with all present the outcome is the builder's figure when it builds one and its failure otherwise |
| ConversationalAgent.VisualizeFailsOnFirstMissing | pharmacy-rag-assistant/agents/conversational_agent.py:169-177 | with parsed data, the tool fails naming the first of chart_type, title, x_column, y_column that is missing |
| ConversationalAgent.Dispatch | pharmacy-rag-assistant/agents/conversational_agent.py:152-194 | total; unknown exactly for names outside the four tools; each kind of outcome comes from its own tool; the chart tool's outcome is exactly `Visualize`'s; a missing argument or a failing service becomes a failure with the message |
| ConversationalAgent.SchemasMatchDispatcher | pharmacy-rag-assistant/agents/conversational_agent.py:152-190 | every declared tool is known to the dispatcher, and omitting its first required argument fails on that argument |
| ConversationalAgent.AutoExecute | pharmacy-rag-assistant/agents/conversational_agent.py:257-271 | only a successful `generate_sql` result is changed: it gains the guarded execution of its own query |
| ConversationalAgent.ExecutedRowsRecorded | pharmacy-rag-assistant/agents/conversational_agent.py:262-267 | a run query's result has executed true, the rows and their count, and status success |
| ConversationalAgent.ExecutionErrorRecorded | pharmacy-rag-assistant/agents/conversational_agent.py:268-271 | a failed run has executed false and the error, while the status stays success |
| ConversationalAgent.Resolve | pharmacy-rag-assistant/agents/conversational_agent.py:251-255 | resolving a call fails exactly when the argument parser rejects its arguments, with the parser's message (see "Tool arguments" under Left out for what the parser rejects) |
| ConversationalAgent.ResolverParses | pharmacy-rag-assistant/agents/conversational_agent.py:251-255 | the agent's resolver fails on a call exactly when the argument parser rejects its arguments, with the parser's message |
| ConversationalAgent.ResolverResolvesAll | pharmacy-rag-assistant/agents/conversational_agent.py:251-255 | calls whose arguments the parser all accepts all resolve |
| ConversationalAgent.ResolvedKinds | pharmacy-rag-assistant/agents/conversational_agent.py:152-194 | a resolved chart, generated query, executed query or retrieval comes from the call of its own tool |
| ConversationalAgent.ResolverChartsOnly | pharmacy-rag-assistant/agents/conversational_agent.py:167-180 | only calls of `create_visualization` resolve to a chart |
| ConversationalAgent.FiguresOfOrigin | pharmacy-rag-assistant/agents/conversational_agent.py:273-274 | every collected figure is the chart of one of the calls |
| ConversationalAgent.ProcessCalls | pharmacy-rag-assistant/agents/conversational_agent.py:251-281 | one turn per call up to the first call whose arguments the parser rejects; on such a failure it stops there with that call's error, otherwise every call has a turn |
| ConversationalAgent.ProcessCallsFigures | pharmacy-rag-assistant/agents/conversational_agent.py:273-274 | when every call resolves, the figures are the calls' figures in call order |
| ConversationalAgent.ProcessCallsRecords | pharmacy-rag-assistant/agents/conversational_agent.py:276-281 | turn i records call i with its resolved result |
| ConversationalAgent.ProcessCallsStep | pharmacy-rag-assistant/agents/conversational_agent.py:251-281 | one more resolved call appends its turn and its figure |
| ConversationalAgent.ProcessCallsStops | pharmacy-rag-assistant/agents/conversational_agent.py:253 | after a failed call, later calls change nothing |
| ConversationalAgent.ProcessCallsFailsAt | pharmacy-rag-assistant/agents/conversational_agent.py:253 | the first call whose arguments the parser rejects decides the error, and only the calls before it have turns |
| ConversationalAgent.ProcessCallsCompletes | pharmacy-rag-assistant/agents/conversational_agent.py:251-281 | when every call resolves, there is no failure, one turn per call and the calls' figures |
| ConversationalAgent.ErrorReply | pharmacy-rag-assistant/agents/conversational_agent.py:207-212 | the error reply is the prefixed message with no figures |
| ConversationalAgent.Converse | pharmacy-rag-assistant/agents/conversational_agent.py:214-299 | a failed first call leaves the history; an answer without tool calls appends just that answer; every successful exchange ends with the answer turn |
| ConversationalAgent.Conclude | pharmacy-rag-assistant/agents/conversational_agent.py:283-299 | the turn ends as the model's second call decides: its failure is the outcome with the history unchanged; otherwise its content is appended as the answer turn and returned with the collected figures |
| ConversationalAgent.ConverseConcludes | pharmacy-rag-assistant/agents/conversational_agent.py:234-288 | when every call resolves, the exchange is the concluding call on the history extended by the request and one turn per call, with the calls' figures |
| ConversationalAgent.ConverseEndsAfterRound | pharmacy-rag-assistant/agents/conversational_agent.py:283-299 | when every call resolves, the model is asked again on the history through the last tool turn; its failure leaves that history and gives the error reply, its answer is appended and returned with the calls' figures |
| ConversationalAgent.ConverseExtends | pharmacy-rag-assistant/agents/conversational_agent.py:214-299 | an exchange only appends to the history |
| ConversationalAgent.ConverseRecordsEveryCall | pharmacy-rag-assistant/agents/conversational_agent.py:236-281 | after the history come the request with all n calls, then n tool turns, one per call, in call order |
| ConversationalAgent.ConverseFilesEveryCall | pharmacy-rag-assistant/agents/conversational_agent.py:236-281 | with a recorder that files under the call, a fully resolved round puts the request and then one tool turn per call, with its id and name, in call order |
| ConversationalAgent.ConverseAnswersAfterTools | pharmacy-rag-assistant/agents/conversational_agent.py:283-299 | with n resolved calls the history grows by n+2 turns, the last the answer, and the figures are the calls' figures; or by n+1 if the second call fails |
| ConversationalAgent.ConverseStopsAtFailedCall | pharmacy-rag-assistant/agents/conversational_agent.py:251-255 | arguments the parser rejects abort the exchange: the request and the earlier tool turns stay, and there is no answer turn |
| ConversationalAgent.ConverseFiguresFromCharts | pharmacy-rag-assistant/agents/conversational_agent.py:233-274 | a reply with a figure needs the model to have called `create_visualization` |
| ConversationalAgent.RecorderFilesUnderCallId | pharmacy-rag-assistant/agents/conversational_agent.py:276-281 | a tool turn carries its call's id and tool name |
| ConversationalAgent.ConverseKeepsAnswered | pharmacy-rag-assistant/agents/conversational_agent.py:236-281 | every tool turn follows an assistant turn that requested its call id, with only tool turns between the two |
| ConversationalAgent.AnsweredRound | pharmacy-rag-assistant/agents/conversational_agent.py:236-281 | a request followed by tool turns answering a prefix of its calls in order keeps every tool turn answered |
| ConversationalAgent.Respond | pharmacy-rag-assistant/agents/conversational_agent.py:196-212 | the user's turn is appended before anything else, and the template is kept |
| ConversationalAgent.RespondWithoutTools | pharmacy-rag-assistant/agents/conversational_agent.py:291-299 | an answer without tool calls adds the user's turn and the answer, and the reply has no figures |
| ConversationalAgent.RespondModelFailure | pharmacy-rag-assistant/agents/conversational_agent.py:202-212 | a model failure keeps only the user's turn and gives the prefixed error reply without figures |
| ConversationalAgent.RespondStopsAtBadArguments | pharmacy-rag-assistant/agents/conversational_agent.py:251-253 | arguments of call k that the parser rejects end the turn with the error reply for the parser's message; the history keeps the user's turn, the request and the k earlier results, nothing more |
| ConversationalAgent.RespondFilesEveryCall | pharmacy-rag-assistant/agents/conversational_agent.py:234-281 | when the parser accepts every call's arguments, the user's turn is followed by the request and one tool turn per call, filed under its id and name, in call order |
| ConversationalAgent.RespondAnswersAfterTools | pharmacy-rag-assistant/agents/conversational_agent.py:283-299 | when the parser accepts every call's arguments, the agent asks the model again on the history through the last tool turn; on failure the history stops there and the reply is the error reply, otherwise the answer is appended and returned with the calls' figures |
| ConversationalAgent.RespondKeepsAnswered | pharmacy-rag-assistant/agents/conversational_agent.py:196-212 | chatting keeps every tool turn right after, with only tool turns between, the request that named its call id |
| ConversationalAgent.RunTools | pharmacy-rag-assistant/agents/conversational_agent.py:251-281 | the loop over the tool calls computes the reference tool processing |
| ConversationalAgent.RunExchange | pharmacy-rag-assistant/agents/conversational_agent.py:214-299 | the step-by-step exchange computes the reference exchange |
| ConversationalAgent.Chat | pharmacy-rag-assistant/agents/conversational_agent.py:196-212 | the method equals the reference `Respond`, keeps the template and appends the user's turn first |
| Text.StripUnique | pharmacy-rag-assistant/agents/sql_agent.py:39 | stripping whitespace around a trimmed text gives that text |
| Text.StripKeepsAbsence | pharmacy-rag-assistant/agents/sql_agent.py:53-55 | stripping cannot create an occurrence of a pattern |
| Text.ReplaceAllPasses | pharmacy-rag-assistant/agents/conversational_agent.py:61 | text before which no occurrence of the pattern starts comes through replace unchanged, and replace goes on with what follows |
| Text.ReplaceAllFirst | pharmacy-rag-assistant/agents/conversational_agent.py:61 | when no occurrence of the pattern starts inside a in a + p + b, replace keeps a, puts the replacement in place of that first occurrence and carries on after it |
| Text.FirstOccurrence | pharmacy-rag-assistant/agents/conversational_agent.py:61 | a pattern that cannot overlap itself, placed after a text that lacks it, is the first occurrence: none starts earlier, not even one that would straddle the boundary |
| ConversationalAgent.PlaceholderUnbordered | pharmacy-rag-assistant/agents/conversational_agent.py:61 | no proper shift of `{{messages}}` agrees with itself, so two occurrences never overlap |
| Text.ReplaceAllAbsent | pharmacy-rag-assistant/agents/conversational_agent.py:61 | a text without the pattern comes back from replace unchanged |
| Text.Capitalize | pharmacy-rag-assistant/tools/visualizer.py:24 | same length, first letter upper-cased, the rest lower-cased |
| Text.JoinContainsPart | pharmacy-rag-assistant/agents/rag_agent.py:58 | every part of a join occurs in the joined text |
| Text.NatToStringRoundTrip | pharmacy-rag-assistant/agents/rag_agent.py:54 | the decimal rendering of a document number reads back as that number |

## Left out

- Logging, `.env` configuration, the model names and the temperatures: they do not change any returned value.
- The network and database clients: the chat model, the SQL model, the embedding service, the similarity query and the store are function parameters. Each may fail with a message.
- `json.loads` and `json.dumps`: parameters. Parsing may fail; serialisation is total, as `default=str` makes it.
- Tool arguments: a call's parsed arguments are a map from names to strings, as the tool schemas declare every parameter a string. Arguments the model cannot represent are folded into the parser's failure: JSON that is not an object (`[1]`, `null`) and non-string values. For these the model ends the whole turn with the error reply. The source does otherwise:
  - A non-object, or a non-string `sql_query`, parses and then raises inside the tool's own handler. It becomes a failed tool result, the loop goes on to the next call, and the model is asked again.
  - `data` given as a JSON list rather than a string is drawn as it is.
  So `isinstance(tool_args["data"], str)` always holds in the model. Only arguments that are not JSON at all end the turn in both.
- `len(data)` in the chart tool's log line: it would raise on parsed data without a length, such as a number. The model's parsed data is always a list of records, so that path is left out.
- The `type` field of a recorded tool call (always "function"): it is not kept in the history turns.
- Floating point: the similarity times 100 and its one-decimal rendering are an opaque `percent` function.
- The query embedding's text form (`emb_str`): it only builds the query's parameter.
- The store's refusal of a negative `LIMIT` is the fixed message `NegativeLimitError`. The database's exact text is not part of this model.
- Plotly figure internals, and `create_grouped_bar_chart` and `create_multi_line_chart` in tools/visualizer.py: library pass-throughs with no logic of their own. A figure is an abstract record of kind, data, title, column roles and layout.
- `database/connection.py`, the data loaders and the UI are not part of this model.
- Repeated column names in a result row: the cursor's rows are dictionaries, so a repeated name keeps one value. A model row keeps every column, and rows are taken to have distinct column names.
- Visualizer.CreateVisualization: does not model plotly's refusal of an x or y column that is missing from the data. The model builds the figure; the source raises `ValueError`, and the chart tool then reports a failed result with no figure.
- ConversationalAgent.RenderPrompt: requires a non-empty history. On an empty one the source raises `UnboundLocalError`, because the transcript is never assigned. `chat` appends the user's turn first, so the empty case is never reached.
- ConversationalAgent.Prompter: returns the bare template for the empty history, a case the source never renders.
- Text.Upper: maps ASCII letters only. Python's `upper` also maps other letters, and a few of them (dotless ı, long ſ) become ASCII keyword letters. So the model's guard accepts some non-ASCII spellings of a keyword that the source refuses.
- Text.Capitalize: like `Upper`, cases ASCII letters only.
- Tool calls are evaluated as pure functions of their arguments and the services. The order of side effects in the database and the model service is not modelled.
- Concurrency: one agent serves one dialogue, sequentially.

=== FILE: conversational_agent.dfy ===
/**
 The conversational agent: keeps the dialogue history, renders it into the
 system prompt, lets the chat model call tools, runs those tools and asks the
 model for the final answer. The chat model, the argument parser, the JSON
 serializer and the services behind the tools are parameters.
 */
module ConversationalAgent {
  import opened Wrappers
  import opened Text
  import opened Records
  import opened SqlExecutor
  import opened SqlAgent
  import opened RagAgent
  import opened Visualizer

  // ---------------------------------------------------------------------------
  // Dialogue history
  // ---------------------------------------------------------------------------

  /** A tool call requested by the chat model: its id, the tool's name and the raw JSON arguments. */
  datatype ToolCall = ToolCall(id: string, name: string, arguments: string)

  /**
   One entry of the history. An assistant turn that requested tools lists the
   calls; a final answer lists none. A tool turn carries the serialized result.
   */
  datatype Turn =
    | User(message: string)
    | Assistant(content: Option<string>, toolCalls: seq<ToolCall>)
    | Tool(toolCallId: string, name: string, payload: string)

  datatype Agent = Agent(template: string, history: seq<Turn>)

  /** `clear_history`: the dialogue starts over with the same prompt template. */
  function ClearHistory(a: Agent): (r: Agent)
    ensures r.history == [] && r.template == a.template
  {
    a.(history := [])
  }

  // ---------------------------------------------------------------------------
  // The system prompt
  // ---------------------------------------------------------------------------

  /** The placeholder in the prompt template that the transcript replaces. */
  const MessagesPlaceholder: string := "{{messages}}"

  /** The tag that opens a user turn's line in the transcript. */
  const UserTag: string := "USER: "

  /** The tag that opens an assistant turn's line in the transcript. */
  const AssistantTag: string := "AI: "

  /** The transcript line of one turn; tool turns have none. */
  function LineOf(t: Turn): (r: seq<string>)
    ensures |r| <= 1 && (|r| == 0 <==> t.Tool?)
  {
    match t
    case User(c) => [UserTag + c]
    case Assistant(c, _) => [AssistantTag + Show(c)]
    case Tool(_, _, _) => []
  }

  /**
   A user turn's line is its message after the user tag; an assistant turn's
   line is its text, `None` when it has none, after the assistant tag.
   */
  lemma LineOfTagged(t: Turn)
    ensures t.User? ==> StartsWith(LineOf(t)[0], UserTag) && LineOf(t)[0][|UserTag|..] == t.message
    ensures t.Assistant? ==>
      StartsWith(LineOf(t)[0], AssistantTag) && LineOf(t)[0][|AssistantTag|..] == Show(t.content)
  {
    match t
    case User(c) =>
      assert (UserTag + c)[..|UserTag|] == UserTag && (UserTag + c)[|UserTag|..] == c;
    case Assistant(c, _) =>
      assert (AssistantTag + Show(c))[..|AssistantTag|] == AssistantTag;
      assert (AssistantTag + Show(c))[|AssistantTag|..] == Show(c);
    case Tool(_, _, _) =>
  }

  /** The transcript lines of a history, oldest first. */
  function Lines(h: seq<Turn>): (r: seq<string>)
    ensures |r| <= |h|
    decreases |h|
  {
    if |h| == 0 then [] else Lines(h[..|h| - 1]) + LineOf(h[|h| - 1])
  }

  /** Every transcript line opens with a speaker's tag. */
  lemma {:induction false} LinesTagged(h: seq<Turn>)
    ensures forall i :: 0 <= i < |Lines(h)| ==> StartsWith(Lines(h)[i], UserTag) || StartsWith(Lines(h)[i], AssistantTag)
    decreases |h|
  {
    if |h| > 0 {
      var n := |h| - 1;
      LinesTagged(h[..n]);
      var r := Lines(h);
      assert r == Lines(h[..n]) + LineOf(h[n]);
      forall i | 0 <= i < |r|
        ensures StartsWith(r[i], UserTag) || StartsWith(r[i], AssistantTag)
      {
        if i >= |Lines(h[..n])| {
          LineOfTagged(h[n]);
          assert r[i] == LineOf(h[n])[0];
        }
      }
    }
  }

  /** Lines are taken turn by turn, so the transcript of a concatenation is the concatenation of transcripts. */
  lemma {:induction false} LinesAppend(a: seq<Turn>, b: seq<Turn>)
    ensures Lines(a + b) == Lines(a) + Lines(b)
    decreases |b|
  {
    if |b| == 0 {
      assert a + b == a;
    } else {
      assert (a + b)[..|a + b| - 1] == a + b[..|b| - 1];
      LinesAppend(a, b[..|b| - 1]);
    }
  }

  /** The last turn adds its own line count to the rendered turns before it. */
  lemma RenderedSnoc(h: seq<Turn>)
    requires |h| > 0
    ensures var n := |h| - 1;
      |set i | 0 <= i < |h| && !h[i].Tool?| == |set i | 0 <= i < n && !h[..n][i].Tool?| + |LineOf(h[n])|
  {
    var n := |h| - 1;
    var before := set i | 0 <= i < n && !h[..n][i].Tool?;
    var all := set i | 0 <= i < |h| && !h[i].Tool?;
    assert before == set i | 0 <= i < n && !h[i].Tool?;
    if h[n].Tool? {
      assert all == before;
    } else {
      assert all == before + {n};
    }
  }

  /** Only user and assistant turns are rendered, one line each. */
  lemma {:induction false} LinesCount(h: seq<Turn>)
    ensures |Lines(h)| == |set i | 0 <= i < |h| && !h[i].Tool?|
    decreases |h|
  {
    if |h| > 0 {
      LinesCount(h[..|h| - 1]);
      RenderedSnoc(h);
    }
  }

  /**
   `_format_system_prompt`: the transcript, one line per user or assistant
   turn joined by newlines, replaces every placeholder in the template. The
   history must not be empty: on an empty one the source fails, since the
   transcript is then never assigned.
   */
  function RenderPrompt(template: string, h: seq<Turn>): (r: string)
    requires |h| > 0
    ensures StartsWith(template, MessagesPlaceholder) ==> StartsWith(r, Join(Lines(h), "\n"))
  {
    var transcript := Join(Lines(h), "\n");
    var r := ReplaceAll(template, MessagesPlaceholder, transcript);
    if StartsWith(template, MessagesPlaceholder) then
      assert r == transcript + ReplaceAll(template[|MessagesPlaceholder|..], MessagesPlaceholder, transcript);
      assert r[..|transcript|] == transcript;
      r
    else r
  }

  /**
   The prompt for each history, as a function value an exchange can be given.
   An exchange only renders histories that end with the user's turn, so the
   empty history, for which the source has no prompt, is never asked about;
   the template stands in for it.
   */
  function Prompter(template: string): seq<Turn> -> string {
    h => if |h| > 0 then RenderPrompt(template, h) else template
  }

  /** Tool turns leave the prompt unchanged. */
  lemma ToolTurnsNotRendered(template: string, h: seq<Turn>, id: string, name: string, payload: string)
    requires |h| > 0
    ensures RenderPrompt(template, h + [Tool(id, name, payload)]) == RenderPrompt(template, h)
  {
    LinesAppend(h, [Tool(id, name, payload)]);
    assert Lines([Tool(id, name, payload)]) == [];
    assert Lines(h) + [] == Lines(h);
  }

  /** A template without the placeholder is the prompt itself, whatever the history. */
  lemma PromptWithoutPlaceholder(template: string, h: seq<Turn>)
    requires |h| > 0 && !Contains(template, MessagesPlaceholder)
    ensures RenderPrompt(template, h) == template
  {
    ReplaceAllAbsent(template, MessagesPlaceholder, Join(Lines(h), "\n"));
  }

  /** Two occurrences of the placeholder can never overlap. */
  lemma PlaceholderUnbordered()
    ensures Unbordered(MessagesPlaceholder)
  {
    var p := MessagesPlaceholder;
    forall d | 0 < d < |p|
      ensures !SelfOverlaps(p, d)
    {
      if d == 1 {
        assert p[2] != p[1];
      } else {
        assert p[11] == '}' && p[11 - d] != '}';
      }
    }
  }

  /**
   Wherever the placeholder first stands in the template, the text before it
   is kept and the transcript takes its place; the rest of the template is
   rendered in turn, so every occurrence is replaced.
   */
  lemma PromptSubstitutes(a: string, b: string, h: seq<Turn>)
    requires |h| > 0 && !Contains(a, MessagesPlaceholder)
    ensures RenderPrompt(a + MessagesPlaceholder + b, h) == a + Join(Lines(h), "\n") + RenderPrompt(b, h)
    ensures !Contains(b, MessagesPlaceholder) ==> RenderPrompt(a + MessagesPlaceholder + b, h) == a + Join(Lines(h), "\n") + b
  {
    PlaceholderUnbordered();
    FirstOccurrence(a, MessagesPlaceholder, b);
    ReplaceAllFirst(a, b, MessagesPlaceholder, Join(Lines(h), "\n"));
    if !Contains(b, MessagesPlaceholder) {
      PromptWithoutPlaceholder(b, h);
    }
  }

  /** A template that is just the placeholder yields the transcript, and a new user turn ends it. */
  lemma PromptEndsWithNewUserTurn(h: seq<Turn>, message: string)
    ensures var transcript := Join(Lines(h + [User(message)]), "\n");
      RenderPrompt(MessagesPlaceholder, h + [User(message)]) == transcript
      && Lines(h + [User(message)]) == Lines(h) + [UserTag + message]
  {
    var h1 := h + [User(message)];
    assert h1[..|h1| - 1] == h;
    var transcript := Join(Lines(h1), "\n");
    assert MessagesPlaceholder[|MessagesPlaceholder|..] == "";
    assert StartsWith(MessagesPlaceholder, MessagesPlaceholder);
    assert ReplaceAll(MessagesPlaceholder, MessagesPlaceholder, transcript)
      == transcript + ReplaceAll("", MessagesPlaceholder, transcript);
  }

  // ---------------------------------------------------------------------------
  // Tool schemas
  // ---------------------------------------------------------------------------

  /** A string parameter of a tool; `choices` is its enumeration, empty when it has none. */
  datatype Param = Param(name: string, description: string, choices: seq<string>)

  datatype ToolSchema = ToolSchema(name: string, description: string, params: seq<Param>, required: seq<string>)

  const GenerateSqlTool: string := "generate_sql"
  const ExecuteSqlTool: string := "execute_sql"
  const VisualizeTool: string := "create_visualization"
  const SearchTool: string := "search_knowledge"

  /** The tools offered to the chat model, in the order they are offered. */
  const ToolNames: seq<string> := [GenerateSqlTool, ExecuteSqlTool, VisualizeTool, SearchTool]

  function ParamNames(ps: seq<Param>): (r: seq<string>)
    ensures |r| == |ps|
    ensures forall i :: 0 <= i < |ps| ==> r[i] == ps[i].name
  {
    seq(|ps|, i requires 0 <= i < |ps| => ps[i].name)
  }

  /** A schema whose parameters are all required, in the order they are declared. */
  function Schema(name: string, description: string, params: seq<Param>): (t: ToolSchema)
    ensures t.name == name && t.params == params
    ensures |t.required| == |params|
    ensures forall i :: 0 <= i < |params| ==> t.required[i] == params[i].name
  {
    ToolSchema(name, description, params, ParamNames(params))
  }

  /** A string parameter without an enumeration. */
  function StringParam(name: string, description: string): (p: Param)
    ensures p.name == name && p.choices == []
  {
    Param(name, description, [])
  }

  /** The chart tool's type parameter, offering the chart builder's kind names as its choices. */
  const ChartTypeParam: Param := Param("chart_type", ChartTypeDescription, KindNames)
  const ChartTypeDescription: string := "Тип графика"

  /** The chart tool's type parameter: its choices are exactly the chart kinds the chart builder accepts. */
  lemma ChartTypeChoicesAreKinds()
    ensures ChartTypeParam.choices == KindNames
    ensures forall c :: c in ChartTypeParam.choices <==> ParseKind(c).Some?
  {
  }

  /** `_define_tools`: the four tools, every parameter a string and every parameter required. */
  function ToolDefinitions(): (ts: seq<ToolSchema>)
    ensures |ts| == |ToolNames|
    ensures forall i :: 0 <= i < |ts| ==> ts[i].name == ToolNames[i]
    ensures forall i :: 0 <= i < |ts| ==> ts[i].required == ParamNames(ts[i].params)
    ensures ChartTypeParam in ts[2].params
  {
    [GenerateSqlSchema(), ExecuteSqlSchema(), VisualizeSchema(), SearchSchema()]
  }

  function GenerateSqlSchema(): (t: ToolSchema)
    ensures t.name == GenerateSqlTool && t.required == ParamNames(t.params) == ["query_description"]
  {
    Schema(GenerateSqlTool, GenerateSqlDescription,
      [StringParam("query_description", QueryDescriptionDescription)])
  }

  function ExecuteSqlSchema(): (t: ToolSchema)
    ensures t.name == ExecuteSqlTool && t.required == ParamNames(t.params) == ["sql_query"]
  {
    Schema(ExecuteSqlTool, ExecuteSqlDescription, [StringParam("sql_query", SqlQueryDescription)])
  }

  function VisualizeSchema(): (t: ToolSchema)
    ensures t.name == VisualizeTool && t.required == ParamNames(t.params)
    ensures t.required == ["data", "chart_type", "title", "x_column", "y_column"]
    ensures ChartTypeParam in t.params
  {
    var ps := [StringParam("data", DataDescription), ChartTypeParam, StringParam("title", TitleDescription),
               StringParam("x_column", XColumnDescription), StringParam("y_column", YColumnDescription)];
    assert ps[1] == ChartTypeParam;
    Schema(VisualizeTool, VisualizeDescription, ps)
  }

  function SearchSchema(): (t: ToolSchema)
    ensures t.name == SearchTool && t.required == ParamNames(t.params) == ["query"]
  {
    Schema(SearchTool, SearchDescription, [StringParam("query", QueryDescription)])
  }

  const GenerateSqlDescription: string := "Генерирует SQL запрос на основе описания на естественном языке"
  const QueryDescriptionDescription: string := "Описание запроса на естественном языке"
  const ExecuteSqlDescription: string := "Выполняет SQL запрос в базе данных"
  const SqlQueryDescription: string := "SQL запрос для выполнения"
  const VisualizeDescription: string := "Создает график на основе данных"
  const DataDescription: string := "Данные для визуализации в формате JSON"
  const TitleDescription: string := "Заголовок графика"
  const XColumnDescription: string := "Название колонки для оси X"
  const YColumnDescription: string := "Название колонки для оси Y"
  const SearchDescription: string :=
    "Ищет релевантную информацию в базе знаний используя векторный поиск (RAG). Используй когда нужна общая информация о продуктах, регионах, категориях или аптеках."
  const QueryDescription: string := "Запрос для поиска в базе знаний"

  // ---------------------------------------------------------------------------
  // Tool results
  // ---------------------------------------------------------------------------

  /**
   What a tool produced. A generated query carries, once the agent has run
   it, the outcome of that run.
   */
  datatype Outcome =
    | SqlGenerated(sql: string, execution: Option<Result<seq<Record>>>)
    | SqlExecuted(rows: seq<Record>)
    | Visualized(figure: Figure)
    | Retrieved(context: string)
    | Failed(error: string)
    | UnknownTool(name: string)

  /** A value in a tool's result mapping. */
  datatype Value = JsonText(text: string) | JsonInt(n: int) | JsonBool(b: bool) | JsonRows(rows: seq<Record>) | JsonFigure(figure: Figure)

  /** A tool's result mapping, entries in insertion order. */
  type Payload = seq<(string, Value)>

  const Success: Value := JsonText("success")

  /** The result mapping of an outcome, with the keys in the order the source inserts them. */
  function ToPayload(o: Outcome): (r: Payload)
    ensures forall i, j :: 0 <= i < j < |r| ==> r[i].0 != r[j].0
    ensures ("status", if o.Failed? || o.UnknownTool? then JsonText("error") else Success) in r
    ensures o.Visualized? <==> exists i :: 0 <= i < |r| && r[i].0 == "figure"
    ensures o.Visualized? ==> ("figure", JsonFigure(o.figure)) in r
    ensures o.SqlGenerated? && o.execution.Some? && o.execution.value.Ok? ==>
      ("row_count", JsonInt(|o.execution.value.value|)) in r
  {
    match o
    case SqlGenerated(sql, None) => [("sql", JsonText(sql)), ("status", Success)]
    case SqlGenerated(sql, Some(Ok(rows))) =>
      [("sql", JsonText(sql)), ("status", Success), ("executed", JsonBool(true)), ("data", JsonRows(rows)), ("row_count", JsonInt(|rows|))]
    case SqlGenerated(sql, Some(Err(e))) =>
      [("sql", JsonText(sql)), ("status", Success), ("executed", JsonBool(false)), ("error", JsonText(e))]
    case SqlExecuted(rows) => [("data", JsonRows(rows)), ("row_count", JsonInt(|rows|)), ("status", Success)]
    case Visualized(fig) =>
      var r := [("figure", JsonFigure(fig)), ("status", Success)];
      assert r[0].0 == "figure";
      r
    case Retrieved(ctx) => [("context", JsonText(ctx)), ("status", Success)]
    case Failed(e) => [("error", JsonText(e)), ("status", JsonText("error"))]
    case UnknownTool(name) => [("error", JsonText(UnknownToolMessage(name))), ("status", JsonText("error"))]
  }

  /** Python's `p[key]` on a mapping: the value stored under `key`, if any. */
  function Lookup(p: Payload, key: string): (v: Option<Value>)
    ensures v.Some? ==> (key, v.value) in p
    decreases |p|
  {
    if |p| == 0 then None
    else if p[0].0 == key then Some(p[0].1)
    else Lookup(p[1..], key)
  }

  /** A key appears in a mapping exactly when some entry has it. */
  lemma {:induction false} LookupIff(p: Payload, key: string)
    ensures Lookup(p, key).Some? <==> exists i :: 0 <= i < |p| && p[i].0 == key
    decreases |p|
  {
    if |p| > 0 && p[0].0 != key {
      LookupIff(p[1..], key);
      assert forall i :: 1 <= i < |p| ==> p[i] == p[1..][i - 1];
    }
  }

  /** The first entry with a key is the one looked up. */
  lemma {:induction false} LookupAt(p: Payload, key: string, i: int)
    requires 0 <= i < |p| && p[i].0 == key
    requires forall j :: 0 <= j < i ==> p[j].0 != key
    ensures Lookup(p, key) == Some(p[i].1)
    decreases i
  {
    if i > 0 {
      LookupAt(p[1..], key, i - 1);
    }
  }

  /** Every result mapping has a status, and it is "success" exactly when no tool failed. */
  lemma StatusReportsFailure(o: Outcome)
    ensures Lookup(ToPayload(o), "status").Some?
    ensures Lookup(ToPayload(o), "status") == Some(Success) <==> !o.Failed? && !o.UnknownTool?
  {
    var p := ToPayload(o);
    if o.SqlExecuted? {
      LookupAt(p, "status", 2);
    } else {
      LookupAt(p, "status", 1);
    }
  }

  /**
   The agent runs a generated query when the tool was `generate_sql` and its
   result has an "sql" entry and status "success".
   */
  predicate ShouldAutoExecute(name: string, o: Outcome) {
    name == GenerateSqlTool && Lookup(ToPayload(o), "sql").Some? && Lookup(ToPayload(o), "status") == Some(Success)
  }

  /** Only a successfully generated query has an "sql" entry with status "success". */
  lemma ShouldAutoExecuteIff(name: string, o: Outcome)
    ensures ShouldAutoExecute(name, o) <==> name == GenerateSqlTool && o.SqlGenerated?
  {
    StatusReportsFailure(o);
    if o.SqlGenerated? {
      LookupAt(ToPayload(o), "sql", 0);
    }
  }

  /** A result carries a figure when it has a "figure" entry. */
  predicate CarriesFigure(o: Outcome) {
    Lookup(ToPayload(o), "figure").Some?
  }

  /** Only a chart built by `create_visualization` carries a figure. */
  lemma CarriesFigureIff(o: Outcome)
    ensures CarriesFigure(o) <==> o.Visualized?
  {
  }

  /** The figure a result contributes to the reply: none, or the one it carries. */
  function FigureOf(o: Outcome): (r: seq<Figure>)
    ensures |r| <= 1
    ensures |r| == 1 <==> o.Visualized?
    ensures o.Visualized? ==> r == [o.figure]
  {
    CarriesFigureIff(o);
    if CarriesFigure(o) then
      match Lookup(ToPayload(o), "figure").value
      case JsonFigure(fig) => [fig]
      case _ => []
    else []
  }

  // ---------------------------------------------------------------------------
  // The dispatcher
  // ---------------------------------------------------------------------------

  /**
   The services behind the agent. `chatModel` answers a system prompt and a
   history, with or without the tools on offer; `parseArgs` is `json.loads` on
   a call's arguments; `parseData` is `json.loads` on the records handed to
   the chart tool; `serialize` is `json.dumps` on a result mapping.
   */
  datatype Services = Services(
    chatModel: ChatModel,
    parseArgs: string -> Result<map<string, string>>,
    sqlModel: SqlModel,
    store: Store,
    parseData: string -> Result<seq<Record>>,
    knowledge: KnowledgeBase,
    serialize: Payload -> string)

  /** A chat model's message: its text, which may be absent, and the tool calls it requests. */
  datatype ModelMessage = ModelMessage(content: Option<string>, toolCalls: seq<ToolCall>)

  /** What `str` of a `KeyError` for a missing argument gives. */
  function KeyErrorMessage(key: string): string {
    "'" + key + "'"
  }

  function UnknownToolMessage(name: string): string {
    "Неизвестный инструмент: " + name
  }

  /** The chart tool's arguments after `data`, in the order the source reads them. */
  const ChartArgs: seq<string> := ["chart_type", "title", "x_column", "y_column"]

  /** Every argument the chart builder takes is present. */
  predicate HasChartArgs(args: map<string, string>) {
    "chart_type" in args && "title" in args && "x_column" in args && "y_column" in args
  }

  /**
   The chart tool after its data has parsed: reads the remaining arguments in
   order, failing on the first one missing, and then calls the chart builder
   with no colour column.
   */
  function Draw(data: seq<Record>, args: map<string, string>): (o: Outcome)
    ensures o.Visualized? || o.Failed?
    ensures o.Visualized? ==>
      HasChartArgs(args)
      && CreateVisualization(data, args["chart_type"], args["title"], args["x_column"], args["y_column"], None) == Ok(o.figure)
    ensures HasChartArgs(args) ==>
      var built := CreateVisualization(data, args["chart_type"], args["title"], args["x_column"], args["y_column"], None);
      (built.Ok? ==> o == Visualized(built.value)) && (built.Err? ==> o == Failed(built.error))
    ensures forall i :: 0 <= i < |ChartArgs| && ChartArgs[i] !in args && (forall j :: 0 <= j < i ==> ChartArgs[j] in args) ==>
      o == Failed(KeyErrorMessage(ChartArgs[i]))
  {
    assert ChartArgs[0] == "chart_type" && ChartArgs[1] == "title" && ChartArgs[2] == "x_column" && ChartArgs[3] == "y_column";
    if "chart_type" !in args then Failed(KeyErrorMessage("chart_type"))
    else if "title" !in args then Failed(KeyErrorMessage("title"))
    else if "x_column" !in args then Failed(KeyErrorMessage("x_column"))
    else if "y_column" !in args then Failed(KeyErrorMessage("y_column"))
    else match CreateVisualization(data, args["chart_type"], args["title"], args["x_column"], args["y_column"], None)
      case Err(e) => Failed(e)
      case Ok(fig) => Visualized(fig)
  }

  /**
   The chart tool. It reads `data` and parses it first, then the remaining
   arguments in order, and fails on the first step that goes wrong; when all
   succeed, the figure is the chart builder's, with no colour column.
   */
  function Visualize(s: Services, args: map<string, string>): (o: Outcome)
    ensures o.Visualized? || o.Failed?
    ensures "data" !in args ==> o == Failed(KeyErrorMessage("data"))
    ensures "data" in args && s.parseData(args["data"]).Err? ==> o == Failed(s.parseData(args["data"]).error)
    ensures o.Visualized? ==>
      "data" in args && s.parseData(args["data"]).Ok? && HasChartArgs(args)
      && CreateVisualization(s.parseData(args["data"]).value, args["chart_type"], args["title"],
                             args["x_column"], args["y_column"], None) == Ok(o.figure)
    ensures "data" in args && s.parseData(args["data"]).Ok? && HasChartArgs(args) ==>
      var built := CreateVisualization(s.parseData(args["data"]).value, args["chart_type"], args["title"],
                                       args["x_column"], args["y_column"], None);
      (built.Ok? ==> o == Visualized(built.value)) && (built.Err? ==> o == Failed(built.error))
    ensures o.Visualized? ==> forall k :: k in ["data", "chart_type", "title", "x_column", "y_column"] ==> k in args
    ensures o.Visualized? ==> o.figure.encoding.Axes? ==> o.figure.encoding.color.None?
  {
    if "data" !in args then Failed(KeyErrorMessage("data"))
    else match s.parseData(args["data"])
      case Err(e) => Failed(e)
      case Ok(data) => Draw(data, args)
  }

  /**
   Once `data` parses, the chart tool fails on the first of its remaining
   arguments that is missing, naming that argument.
   */
  lemma VisualizeFailsOnFirstMissing(s: Services, args: map<string, string>, i: int)
    requires "data" in args && s.parseData(args["data"]).Ok?
    requires 0 <= i < |ChartArgs| && ChartArgs[i] !in args
    requires forall j :: 0 <= j < i ==> ChartArgs[j] in args
    ensures Visualize(s, args) == Failed(KeyErrorMessage(ChartArgs[i]))
  {
    if i > 0 { assert ChartArgs[0] in args; }
    if i > 1 { assert ChartArgs[1] in args; }
    if i > 2 { assert ChartArgs[2] in args; }
  }

  /**
   `_execute_tool`: runs the named tool on parsed arguments. It never fails:
   a missing argument, a failing service or an unknown name each becomes a
   failed outcome carrying the message.
   */
  function Dispatch(s: Services, name: string, args: map<string, string>): (o: Outcome)
    ensures o.UnknownTool? <==> name !in ToolNames
    ensures o.UnknownTool? ==> o.name == name
    ensures o.SqlGenerated? ==> name == GenerateSqlTool && o.execution.None?
    ensures o.SqlExecuted? ==> name == ExecuteSqlTool
    ensures o.Visualized? ==> name == VisualizeTool
    ensures name == VisualizeTool ==> o == Visualize(s, args)
    ensures o.Retrieved? ==> name == SearchTool
    ensures name == GenerateSqlTool ==>
      if "query_description" !in args then o == Failed(KeyErrorMessage("query_description"))
      else match GenerateSql(s.sqlModel, args["query_description"])
        case Ok(sql) => o == SqlGenerated(sql, None)
        case Err(e) => o == Failed(e)
    ensures name == ExecuteSqlTool ==>
      if "sql_query" !in args then o == Failed(KeyErrorMessage("sql_query"))
      else match ExecuteSafeSql(s.store, args["sql_query"])
        case Ok(rows) => o == SqlExecuted(rows)
        case Err(e) => o == Failed(e)
    ensures name == SearchTool ==>
      if "query" !in args then o == Failed(KeyErrorMessage("query"))
      else o == Retrieved(SearchKnowledge(s.knowledge, args["query"], DefaultTopK))
  {
    if name == GenerateSqlTool then
      if "query_description" !in args then Failed(KeyErrorMessage("query_description"))
      else match GenerateSql(s.sqlModel, args["query_description"])
        case Ok(sql) => SqlGenerated(sql, None)
        case Err(e) => Failed(e)
    else if name == ExecuteSqlTool then
      if "sql_query" !in args then Failed(KeyErrorMessage("sql_query"))
      else match ExecuteSafeSql(s.store, args["sql_query"])
        case Ok(rows) => SqlExecuted(rows)
        case Err(e) => Failed(e)
    else if name == VisualizeTool then Visualize(s, args)
    else if name == SearchTool then
      if "query" !in args then Failed(KeyErrorMessage("query"))
      else Retrieved(SearchKnowledge(s.knowledge, args["query"], DefaultTopK))
    else UnknownTool(name)
  }

  /**
   The declared tools and the dispatcher agree: every declared tool is known
   to it, and a call that omits the first required argument fails on that
   argument.
   */
  lemma SchemasMatchDispatcher(s: Services, i: int, args: map<string, string>)
    requires 0 <= i < |ToolDefinitions()|
    ensures var t := ToolDefinitions()[i];
      !Dispatch(s, t.name, args).UnknownTool?
      && (t.required[0] !in args ==> Dispatch(s, t.name, args) == Failed(KeyErrorMessage(t.required[0])))
  {
    assert ToolDefinitions()[i].name == ToolNames[i];
  }

  // ---------------------------------------------------------------------------
  // Running the requested tools
  // ---------------------------------------------------------------------------

  /**
   After a successful `generate_sql` the agent runs the generated query
   through the guarded executor and records the outcome; other results are
   left as they are.
   */
  function AutoExecute(store: Store, name: string, o: Outcome): (r: Outcome)
    ensures !ShouldAutoExecute(name, o) ==> r == o
    ensures ShouldAutoExecute(name, o) ==>
      o.SqlGenerated? && r.SqlGenerated? && r.sql == o.sql && r.execution == Some(ExecuteSafeSql(store, o.sql))
  {
    if ShouldAutoExecute(name, o) then
      ShouldAutoExecuteIff(name, o);
      SqlGenerated(o.sql, Some(ExecuteSafeSql(store, o.sql)))
    else o
  }

  /**
   The result mapping of a generated query that ran: "executed" is true and
   the rows come with their count, while the status stays "success".
   */
  lemma ExecutedRowsRecorded(sql: string, rows: seq<Record>)
    ensures var p := ToPayload(SqlGenerated(sql, Some(Ok(rows))));
      Lookup(p, "sql") == Some(JsonText(sql)) && Lookup(p, "status") == Some(Success)
      && Lookup(p, "executed") == Some(JsonBool(true)) && Lookup(p, "data") == Some(JsonRows(rows))
      && Lookup(p, "row_count") == Some(JsonInt(|rows|))
  {
    var p := ToPayload(SqlGenerated(sql, Some(Ok(rows))));
    LookupAt(p, "sql", 0);
    LookupAt(p, "status", 1);
    LookupAt(p, "executed", 2);
    LookupAt(p, "data", 3);
    LookupAt(p, "row_count", 4);
  }

  /**
   The result mapping of a generated query whose execution failed or was
   refused: "executed" is false and the error is kept, yet the status is
   still "success", since generating the query did succeed.
   */
  lemma ExecutionErrorRecorded(sql: string, e: string)
    ensures var p := ToPayload(SqlGenerated(sql, Some(Err(e))));
      Lookup(p, "sql") == Some(JsonText(sql)) && Lookup(p, "status") == Some(Success)
      && Lookup(p, "executed") == Some(JsonBool(false)) && Lookup(p, "error") == Some(JsonText(e))
  {
    var p := ToPayload(SqlGenerated(sql, Some(Err(e))));
    LookupAt(p, "sql", 0);
    LookupAt(p, "status", 1);
    LookupAt(p, "executed", 2);
    LookupAt(p, "error", 3);
  }

  /** One tool call: parse its arguments, run the tool, run a generated query. Only the parse can fail. */
  function Resolve(s: Services, call: ToolCall): (r: Result<Outcome>)
    ensures r.Err? <==> s.parseArgs(call.arguments).Err?
    ensures r.Err? ==> r.error == s.parseArgs(call.arguments).error
  {
    match s.parseArgs(call.arguments)
    case Err(e) => Err(e)
    case Ok(args) => Ok(AutoExecute(s.store, call.name, Dispatch(s, call.name, args)))
  }

  /** Resolving calls against the services, as a function value the tool loop can be given. */
  function Resolver(s: Services): ToolCall -> Result<Outcome> {
    call => Resolve(s, call)
  }

  /** The history entry recording a tool's result. */
  function ToolTurn(serialize: Payload -> string, call: ToolCall, o: Outcome): Turn {
    Tool(call.id, call.name, serialize(ToPayload(o)))
  }

  /** The figures a run of successfully resolved calls contributes, in call order. */
  function FiguresOf(resolve: ToolCall -> Result<Outcome>, calls: seq<ToolCall>): (figs: seq<Figure>)
    requires forall i :: 0 <= i < |calls| ==> resolve(calls[i]).Ok?
    ensures |figs| <= |calls|
    decreases |calls|
  {
    if |calls| == 0 then []
    else
      var n := |calls| - 1;
      FiguresOf(resolve, calls[..n]) + FigureOf(resolve(calls[n]).value)
  }

  /** Figures are collected call by call. */
  lemma FiguresOfSnoc(resolve: ToolCall -> Result<Outcome>, calls: seq<ToolCall>, call: ToolCall)
    requires forall i :: 0 <= i < |calls| ==> resolve(calls[i]).Ok?
    requires resolve(call).Ok?
    ensures forall i :: 0 <= i < |calls + [call]| ==> resolve((calls + [call])[i]).Ok?
    ensures FiguresOf(resolve, calls + [call]) == FiguresOf(resolve, calls) + FigureOf(resolve(call).value)
  {
    assert (calls + [call])[..|calls|] == calls;
  }

  /** Every collected figure is the figure of one of the calls. */
  lemma {:induction false} FiguresOfOrigin(resolve: ToolCall -> Result<Outcome>, calls: seq<ToolCall>, f: Figure)
    requires forall i :: 0 <= i < |calls| ==> resolve(calls[i]).Ok?
    requires f in FiguresOf(resolve, calls)
    ensures exists i :: 0 <= i < |calls| && resolve(calls[i]).value == Visualized(f)
    decreases |calls|
  {
    var n := |calls| - 1;
    if f in FigureOf(resolve(calls[n]).value) {
      assert resolve(calls[n]).value == Visualized(f);
    } else {
      FiguresOfOrigin(resolve, calls[..n], f);
      var j :| 0 <= j < n && resolve(calls[..n][j]).value == Visualized(f);
      assert calls[j] == calls[..n][j];
    }
  }

  /** A resolved call names the tool whose kind of result it carries; only a generated query is ever run. */
  lemma ResolvedKinds(s: Services, call: ToolCall)
    requires Resolve(s, call).Ok?
    ensures Resolve(s, call).value.Visualized? ==> call.name == VisualizeTool
    ensures Resolve(s, call).value.SqlGenerated? ==> call.name == GenerateSqlTool
    ensures Resolve(s, call).value.SqlExecuted? ==> call.name == ExecuteSqlTool
    ensures Resolve(s, call).value.Retrieved? ==> call.name == SearchTool
  {
    var o := Dispatch(s, call.name, s.parseArgs(call.arguments).value);
    ShouldAutoExecuteIff(call.name, o);
  }

  /** A resolver that yields a figure only for `create_visualization` calls. */
  ghost predicate ChartsOnly(resolve: ToolCall -> Result<Outcome>) {
    forall call :: resolve(call).Ok? && resolve(call).value.Visualized? ==> call.name == VisualizeTool
  }

  /** Resolving against the services yields a figure only for `create_visualization`. */
  lemma ResolverChartsOnly(s: Services)
    ensures ChartsOnly(Resolver(s))
  {
    forall call | Resolver(s)(call).Ok? && Resolver(s)(call).value.Visualized?
      ensures call.name == VisualizeTool
    {
      ResolvedKinds(s, call);
    }
  }

  /**
   Where the tool loop has got to: the tool turns appended and the figures
   collected so far, and the parse failure that ended it early, if any.
   */
  datatype Progress = Progress(turns: seq<Turn>, figures: seq<Figure>, failure: Option<string>)

  /** Recording results as tool turns, as a function value the tool loop can be given. */
  function Recorder(serialize: Payload -> string): (ToolCall, Outcome) -> Turn {
    (call, o) => ToolTurn(serialize, call, o)
  }

  /**
   The tool loop over `calls`: each call is resolved and its result recorded
   as a turn, until one fails, which ends the loop.
   */
  function ProcessCalls(resolve: ToolCall -> Result<Outcome>, record: (ToolCall, Outcome) -> Turn, calls: seq<ToolCall>): (p: Progress)
    ensures |p.turns| <= |calls|
    ensures forall i :: 0 <= i < |p.turns| ==> resolve(calls[i]).Ok?
    ensures p.failure.None? ==> |p.turns| == |calls|
    ensures p.failure.Some? ==> |p.turns| < |calls| && resolve(calls[|p.turns|]) == Err(p.failure.value)
    decreases |calls|
  {
    if |calls| == 0 then Progress([], [], None)
    else
      var n := |calls| - 1;
      var p := ProcessCalls(resolve, record, calls[..n]);
      if p.failure.Some? then p
      else
        match resolve(calls[n])
        case Err(e) => p.(failure := Some(e))
        case Ok(o) => Progress(p.turns + [record(calls[n], o)], p.figures + FigureOf(o), None)
  }

  /** When every call resolves, the figures collected are those of all the calls, in call order. */
  lemma {:induction false} ProcessCallsFigures(resolve: ToolCall -> Result<Outcome>, record: (ToolCall, Outcome) -> Turn, calls: seq<ToolCall>)
    requires forall i :: 0 <= i < |calls| ==> resolve(calls[i]).Ok?
    ensures ProcessCalls(resolve, record, calls).failure.None?
    ensures ProcessCalls(resolve, record, calls).figures == FiguresOf(resolve, calls)
    decreases |calls|
  {
    if |calls| > 0 {
      assert forall i :: 0 <= i < |calls| - 1 ==> calls[..|calls| - 1][i] == calls[i];
      ProcessCallsFigures(resolve, record, calls[..|calls| - 1]);
      ProcessCallsLastFigures(resolve, record, calls);
      assert FiguresOf(resolve, calls)
        == FiguresOf(resolve, calls[..|calls| - 1]) + FigureOf(resolve(calls[|calls| - 1]).value);
    }
  }

  /** A call that resolves after a run without failure adds its figure, if any, and no failure. */
  lemma ProcessCallsLastFigures(resolve: ToolCall -> Result<Outcome>, record: (ToolCall, Outcome) -> Turn, calls: seq<ToolCall>)
    requires |calls| > 0
    requires ProcessCalls(resolve, record, calls[..|calls| - 1]).failure.None? && resolve(calls[|calls| - 1]).Ok?
    ensures ProcessCalls(resolve, record, calls).failure.None?
    ensures ProcessCalls(resolve, record, calls).figures
      == ProcessCalls(resolve, record, calls[..|calls| - 1]).figures + FigureOf(resolve(calls[|calls| - 1]).value)
  {
  }

  /** Each recorded turn is the record of its call's result, in call order. */
  lemma {:induction false} ProcessCallsRecords(resolve: ToolCall -> Result<Outcome>, record: (ToolCall, Outcome) -> Turn, calls: seq<ToolCall>)
    ensures var p := ProcessCalls(resolve, record, calls);
      forall i :: 0 <= i < |p.turns| ==> p.turns[i] == record(calls[i], resolve(calls[i]).value)
    decreases |calls|
  {
    if |calls| > 0 {
      var n := |calls| - 1;
      var q := ProcessCalls(resolve, record, calls[..n]);
      var p := ProcessCalls(resolve, record, calls);
      ProcessCallsRecords(resolve, record, calls[..n]);
      ProcessCallsLast(resolve, record, calls);
      forall i | 0 <= i < |p.turns|
        ensures p.turns[i] == record(calls[i], resolve(calls[i]).value)
      {
        if i < |q.turns| {
          assert p.turns[i] == q.turns[i] && calls[..n][i] == calls[i];
        } else {
          assert q.failure.None? && resolve(calls[n]).Ok? && i == n;
          assert p.turns[i] == record(calls[n], resolve(calls[n]).value);
        }
      }
    }
  }

  /** The last call either adds the record of its result or, after a failure, nothing. */
  lemma ProcessCallsLast(resolve: ToolCall -> Result<Outcome>, record: (ToolCall, Outcome) -> Turn, calls: seq<ToolCall>)
    requires |calls| > 0
    ensures var n := |calls| - 1;
      var q := ProcessCalls(resolve, record, calls[..n]);
      ProcessCalls(resolve, record, calls).turns
        == if q.failure.None? && resolve(calls[n]).Ok? then q.turns + [record(calls[n], resolve(calls[n]).value)] else q.turns
  {
  }

  /** One more call that resolves appends its record and its figure. */
  lemma ProcessCallsStep(resolve: ToolCall -> Result<Outcome>, record: (ToolCall, Outcome) -> Turn, calls: seq<ToolCall>, i: int)
    requires 0 <= i < |calls| && ProcessCalls(resolve, record, calls[..i]).failure.None? && resolve(calls[i]).Ok?
    ensures var p := ProcessCalls(resolve, record, calls[..i]);
      var o := resolve(calls[i]).value;
      ProcessCalls(resolve, record, calls[..i + 1]) == Progress(p.turns + [record(calls[i], o)], p.figures + FigureOf(o), None)
  {
    assert calls[..i + 1][..i] == calls[..i];
  }

  /** Once a call has failed, later calls are never looked at. */
  lemma {:induction false} ProcessCallsStops(resolve: ToolCall -> Result<Outcome>, record: (ToolCall, Outcome) -> Turn, calls: seq<ToolCall>, k: int)
    requires 0 <= k <= |calls| && ProcessCalls(resolve, record, calls[..k]).failure.Some?
    ensures ProcessCalls(resolve, record, calls) == ProcessCalls(resolve, record, calls[..k])
    decreases |calls| - k
  {
    if k < |calls| {
      assert calls[..k + 1][..k] == calls[..k];
      ProcessCallsStops(resolve, record, calls, k + 1);
    } else {
      assert calls[..k] == calls;
    }
  }

  // ---------------------------------------------------------------------------
  // A chat exchange
  // ---------------------------------------------------------------------------

  /** The reply handed back to the interface: the answer text, which may be absent, and the figures. */
  datatype Reply = Reply(response: Option<string>, figures: seq<Figure>)

  const ErrorReplyPrefix: string := "Произошла ошибка: "

  /** The reply for an exchange that failed: the message, and no figures. */
  function ErrorReply(error: string): (r: Reply)
    ensures r.figures == [] && r.response == Some(ErrorReplyPrefix + error)
  {
    Reply(Some(ErrorReplyPrefix + error), [])
  }

  /** What the user is shown at the end of an exchange: the reply, or the error reply for its failure. */
  function Answer(x: Exchange): (r: Reply)
    ensures x.outcome.Ok? ==> r == x.outcome.value
    ensures x.outcome.Err? ==> r == ErrorReply(x.outcome.error)
  {
    if x.outcome.Ok? then x.outcome.value else ErrorReply(x.outcome.error)
  }

  /** The history after an exchange and its result, or the failure that ended it. */
  datatype Exchange = Exchange(history: seq<Turn>, outcome: Result<Reply>)

  /** The chat model: a prompt, the history, whether tools are offered; its message, or the failure it raised. */
  type ChatModel = (string, seq<Turn>, bool) -> Result<ModelMessage>

  /**
   `_chat_openai` on a history that already ends with the user's turn. The
   model is asked with the tools on offer; if it requests none, its text is
   the answer. Otherwise its request, then each tool's result, is appended,
   and the model is asked again without tools for the answer. How a call is
   resolved and recorded is given as `resolve` and `record`.
   */
  function Converse(model: ChatModel, prompt: seq<Turn> -> string, resolve: ToolCall -> Result<Outcome>,
                    record: (ToolCall, Outcome) -> Turn, h: seq<Turn>): (x: Exchange)
    requires |h| > 0
    ensures model(prompt(h), h, true).Err? ==>
      x == Exchange(h, Err(model(prompt(h), h, true).error))
    ensures model(prompt(h), h, true).Ok? && |model(prompt(h), h, true).value.toolCalls| == 0 ==>
      var m := model(prompt(h), h, true).value;
      x == Exchange(h + [Assistant(m.content, [])], Ok(Reply(m.content, [])))
    ensures x.outcome.Ok? ==> |x.history| > |h| && x.history[|x.history| - 1] == Assistant(x.outcome.value.response, [])
  {
    match model(prompt(h), h, true)
    case Err(e) => Exchange(h, Err(e))
    case Ok(m) =>
      if |m.toolCalls| == 0 then Exchange(h + [Assistant(m.content, [])], Ok(Reply(m.content, [])))
      else
        var h2 := h + [Assistant(m.content, m.toolCalls)];
        var p := ProcessCalls(resolve, record, m.toolCalls);
        if p.failure.Some? then Exchange(h2 + p.turns, Err(p.failure.value))
        else Conclude(model, prompt, h2 + p.turns, p.figures)
  }

  /**
   The second model call, made once the tools have run and without tools on
   offer: its text is the answer, and the reply carries the collected figures.
   */
  function Conclude(model: ChatModel, prompt: seq<Turn> -> string, h: seq<Turn>, figures: seq<Figure>): (x: Exchange)
    requires |h| > 0
    ensures x.outcome.Err? ==> x.history == h
    ensures x.outcome.Ok? ==> x.history == h + [Assistant(x.outcome.value.response, [])] && x.outcome.value.figures == figures
    ensures x.outcome.Err? <==> model(prompt(h), h, false).Err?
    ensures x.outcome.Err? ==> x.outcome.error == model(prompt(h), h, false).error
    ensures x.outcome.Ok? ==> x.outcome.value.response == model(prompt(h), h, false).value.content
  {
    match model(prompt(h), h, false)
    case Err(e) => Exchange(h, Err(e))
    case Ok(m) => Exchange(h + [Assistant(m.content, [])], Ok(Reply(m.content, figures)))
  }

  /**
   How a turn ends after its tool round, given the round's history `h` and
   the model's second answer on it: a failure leaves the history as it is and
   becomes an error reply; an answer is appended and returned with `figures`.
   */
  function AfterRound(second: Result<ModelMessage>, h: seq<Turn>, figures: seq<Figure>): (seq<Turn>, Reply) {
    match second
    case Err(e) => (h, ErrorReply(e))
    case Ok(msg) => (h + [Assistant(msg.content, [])], Reply(msg.content, figures))
  }

  /** The concluding call ends the turn as `AfterRound` describes, keeping the history it was given as a prefix. */
  lemma ConcludeAnswer(model: ChatModel, prompt: seq<Turn> -> string, h: seq<Turn>, figures: seq<Figure>)
    requires |h| > 0
    ensures var x := Conclude(model, prompt, h, figures);
      |h| <= |x.history| && x.history[..|h|] == h
      && (x.history, Answer(x)) == AfterRound(model(prompt(h), h, false), h, figures)
  {
    var x := Conclude(model, prompt, h, figures);
    assert x.history[..|h|] == h;
  }

  /** An exchange only ever appends to the history it starts from. */
  lemma ConverseExtends(model: ChatModel, prompt: seq<Turn> -> string, resolve: ToolCall -> Result<Outcome>,
                        record: (ToolCall, Outcome) -> Turn, h: seq<Turn>)
    requires |h| > 0
    ensures var x := Converse(model, prompt, resolve, record, h); |x.history| >= |h| && x.history[..|h|] == h
  {
    var x := Converse(model, prompt, resolve, record, h);
    match model(prompt(h), h, true)
    case Err(_) =>
    case Ok(m) =>
      KeepsPrefix(h, h, [Assistant(m.content, m.toolCalls)]);
      if |m.toolCalls| == 0 {
        KeepsPrefix(h, h, [Assistant(m.content, [])]);
      } else {
        var p := ProcessCalls(resolve, record, m.toolCalls);
        var h3 := h + [Assistant(m.content, m.toolCalls)] + p.turns;
        KeepsPrefix(h, h + [Assistant(m.content, m.toolCalls)], p.turns);
        if p.failure.None? && x.outcome.Ok? {
          KeepsPrefix(h, h3, [Assistant(x.outcome.value.response, [])]);
        }
      }
  }

  /** Appending to a history that starts with `h` keeps it starting with `h`. */
  lemma KeepsPrefix(h: seq<Turn>, g: seq<Turn>, more: seq<Turn>)
    requires |g| >= |h| && g[..|h|] == h
    ensures |g + more| >= |h| && (g + more)[..|h|] == h
  {
    assert (g + more)[..|h|] == g[..|h|];
  }

  /**
   `chat`: the user's turn is appended first, then the exchange runs. It
   never fails: a failure anywhere becomes an error reply without figures,
   and the turns appended before the failure stay in the history.
   */
  function Respond(s: Services, a: Agent, message: string): (r: (Agent, Reply))
    ensures r.0.template == a.template
    ensures |r.0.history| > |a.history| && r.0.history[..|a.history| + 1] == a.history + [User(message)]
  {
    var h := a.history + [User(message)];
    var x := Converse(s.chatModel, Prompter(a.template), Resolver(s), Recorder(s.serialize), h);
    ConverseExtends(s.chatModel, Prompter(a.template), Resolver(s), Recorder(s.serialize), h);
    (a.(history := x.history), Answer(x))
  }

  /** A turn is an exchange on the old history and the user message: the agent keeps its history, the user sees its answer. */
  lemma RespondExchange(s: Services, a: Agent, message: string)
    ensures var x := Converse(s.chatModel, Prompter(a.template), Resolver(s), Recorder(s.serialize), a.history + [User(message)]);
      Respond(s, a, message) == (a.(history := x.history), Answer(x))
  {
  }

  /**
   A message the model answers without tools: the history gains the user's
   turn and the answer, and the reply is the answer without figures.
   */
  lemma RespondWithoutTools(s: Services, a: Agent, message: string, m: ModelMessage)
    requires var h := a.history + [User(message)];
      s.chatModel(Prompter(a.template)(h), h, true) == Ok(m) && |m.toolCalls| == 0
    ensures Respond(s, a, message)
      == (Agent(a.template, a.history + [User(message)] + [Assistant(m.content, [])]), Reply(m.content, []))
  {
  }

  /**
   A message the model fails on: only the user's turn is kept, and the reply
   is the error reply.
   */
  lemma RespondModelFailure(s: Services, a: Agent, message: string, e: string)
    requires var h := a.history + [User(message)];
      s.chatModel(Prompter(a.template)(h), h, true) == Err(e)
    ensures Respond(s, a, message) == (Agent(a.template, a.history + [User(message)]), ErrorReply(e))
  {
  }

  /** The agent's resolver fails on a call exactly when the call's arguments do not parse, with the parser's message. */
  lemma ResolverParses(s: Services, call: ToolCall)
    ensures Resolver(s)(call).Ok? <==> s.parseArgs(call.arguments).Ok?
    ensures Resolver(s)(call).Err? ==> Resolver(s)(call).error == s.parseArgs(call.arguments).error
  {
    assert Resolver(s)(call) == Resolve(s, call);
  }

  /** Calls whose arguments all parse all resolve. */
  lemma ResolverResolvesAll(s: Services, calls: seq<ToolCall>)
    requires forall i :: 0 <= i < |calls| ==> s.parseArgs(calls[i].arguments).Ok?
    ensures forall i :: 0 <= i < |calls| ==> Resolver(s)(calls[i]).Ok?
  {
    forall i | 0 <= i < |calls|
      ensures Resolver(s)(calls[i]).Ok?
    {
      ResolverParses(s, calls[i]);
    }
  }

  /**
   A call whose arguments do not parse ends the turn with an error reply:
   the history keeps the user message, the assistant turn that requested the
   calls and the results of the calls before the bad one.
   */
  lemma RespondStopsAtBadArguments(s: Services, a: Agent, message: string, m: ModelMessage, k: int)
    requires var h := a.history + [User(message)];
      s.chatModel(Prompter(a.template)(h), h, true) == Ok(m)
    requires 0 <= k < |m.toolCalls| && s.parseArgs(m.toolCalls[k].arguments).Err?
    requires forall j :: 0 <= j < k ==> s.parseArgs(m.toolCalls[j].arguments).Ok?
    ensures var r := Respond(s, a, message);
      r.1 == ErrorReply(s.parseArgs(m.toolCalls[k].arguments).error)
      && |r.0.history| == |a.history| + 2 + k
      && r.0.history[|a.history| + 1] == Assistant(m.content, m.toolCalls)
  {
    var h := a.history + [User(message)];
    ResolverParses(s, m.toolCalls[k]);
    forall j | 0 <= j < k
      ensures Resolver(s)(m.toolCalls[j]).Ok?
    {
      ResolverParses(s, m.toolCalls[j]);
    }
    ConverseStopsAtFailedCall(s.chatModel, Prompter(a.template), Resolver(s), Recorder(s.serialize), h, m, k);
  }

  /**
   When every requested call's arguments parse, the assistant turn that
   requested them is followed by one tool turn per call, in order, filed
   under the call's identifier and name.
   */
  lemma RespondFilesEveryCall(s: Services, a: Agent, message: string, m: ModelMessage)
    requires var h := a.history + [User(message)];
      s.chatModel(Prompter(a.template)(h), h, true) == Ok(m) && |m.toolCalls| > 0
    requires forall i :: 0 <= i < |m.toolCalls| ==> s.parseArgs(m.toolCalls[i].arguments).Ok?
    ensures RecordsRound(Respond(s, a, message).0.history, |a.history| + 1, m.content, m.toolCalls)
  {
    var h := a.history + [User(message)];
    ResolverResolvesAll(s, m.toolCalls);
    RecorderFilesUnderCallId(s.serialize);
    ConverseFilesEveryCall(s.chatModel, Prompter(a.template), Resolver(s), Recorder(s.serialize), h, m);
    RespondExchange(s, a, message);
  }

  /** The figures that calls whose arguments all parse contribute in a chat turn. */
  function ChatFigures(s: Services, calls: seq<ToolCall>): seq<Figure>
    requires forall i :: 0 <= i < |calls| ==> s.parseArgs(calls[i].arguments).Ok?
  {
    ResolverResolvesAll(s, calls);
    FiguresOf(Resolver(s), calls)
  }

  /** The end of a turn whose calls all resolve, stated on the exchange the turn runs. */
  lemma ResolvedRoundEnds(s: Services, a: Agent, message: string, m: ModelMessage)
    requires var h := a.history + [User(message)];
      s.chatModel(Prompter(a.template)(h), h, true) == Ok(m) && |m.toolCalls| > 0
    requires forall i :: 0 <= i < |m.toolCalls| ==> Resolver(s)(m.toolCalls[i]).Ok?
    ensures var x := Converse(s.chatModel, Prompter(a.template), Resolver(s), Recorder(s.serialize), a.history + [User(message)]);
      var k := |a.history + [User(message)]| + 1 + |m.toolCalls|;
      k <= |x.history|
      && (x.history, Answer(x)) == AfterRound(s.chatModel(Prompter(a.template)(x.history[..k]), x.history[..k], false), x.history[..k],
                                              FiguresOf(Resolver(s), m.toolCalls))
  {
    ConverseEndsAfterRound(s.chatModel, Prompter(a.template), Resolver(s), Recorder(s.serialize), a.history + [User(message)], m);
  }

  /**
   When every requested call's arguments parse, the model is asked once
   more, without tools, on the history up to the last tool turn (the user's
   turn, the assistant turn that asked for the calls and one turn per call):
   its failure ends the turn there with an error reply, its answer is
   appended and returned with the figures the calls drew.
   */
  lemma RespondAnswersAfterTools(s: Services, a: Agent, message: string, m: ModelMessage)
    requires var h := a.history + [User(message)];
      s.chatModel(Prompter(a.template)(h), h, true) == Ok(m) && |m.toolCalls| > 0
    requires forall i :: 0 <= i < |m.toolCalls| ==> s.parseArgs(m.toolCalls[i].arguments).Ok?
    ensures var r := Respond(s, a, message);
      var k := |a.history + [User(message)]| + 1 + |m.toolCalls|;
      k <= |r.0.history|
      && (r.0.history, r.1) == AfterRound(s.chatModel(Prompter(a.template)(r.0.history[..k]), r.0.history[..k], false),
                                          r.0.history[..k], ChatFigures(s, m.toolCalls))
  {
    ResolverResolvesAll(s, m.toolCalls);
    ResolvedRoundEnds(s, a, message, m);
    RespondExchange(s, a, message);
  }

  /** A failed tool call is where the loop stops: the calls before it are all recorded, it and later ones are not. */
  lemma ProcessCallsFailsAt(resolve: ToolCall -> Result<Outcome>, record: (ToolCall, Outcome) -> Turn, calls: seq<ToolCall>, k: int)
    requires 0 <= k < |calls| && resolve(calls[k]).Err?
    requires forall j :: 0 <= j < k ==> resolve(calls[j]).Ok?
    ensures ProcessCalls(resolve, record, calls).failure == Some(resolve(calls[k]).error)
    ensures |ProcessCalls(resolve, record, calls).turns| == k
  {
    var p := ProcessCalls(resolve, record, calls[..k + 1]);
    assert calls[..k + 1][k] == calls[k];
    assert forall j :: 0 <= j < k ==> calls[..k + 1][j] == calls[j];
    ProcessCallsStops(resolve, record, calls, k + 1);
  }

  /** When every call resolves, the loop runs to the end and records one turn per call. */
  lemma ProcessCallsCompletes(resolve: ToolCall -> Result<Outcome>, record: (ToolCall, Outcome) -> Turn, calls: seq<ToolCall>)
    requires forall i :: 0 <= i < |calls| ==> resolve(calls[i]).Ok?
    ensures ProcessCalls(resolve, record, calls).failure.None?
    ensures |ProcessCalls(resolve, record, calls).turns| == |calls|
    ensures ProcessCalls(resolve, record, calls).figures == FiguresOf(resolve, calls)
  {
    ProcessCallsFigures(resolve, record, calls);
  }

  /**
   When every requested call resolves, the history holds the request and then
   one recorded result per call, in request order.
   */
  lemma ConverseRecordsEveryCall(model: ChatModel, prompt: seq<Turn> -> string, resolve: ToolCall -> Result<Outcome>,
                                 record: (ToolCall, Outcome) -> Turn, h: seq<Turn>, m: ModelMessage)
    requires |h| > 0 && model(prompt(h), h, true) == Ok(m) && |m.toolCalls| > 0
    requires forall i :: 0 <= i < |m.toolCalls| ==> resolve(m.toolCalls[i]).Ok?
    ensures var x := Converse(model, prompt, resolve, record, h);
      |x.history| >= |h| + 1 + |m.toolCalls| && x.history[|h|] == Assistant(m.content, m.toolCalls)
      && forall i :: 0 <= i < |m.toolCalls| ==> x.history[|h| + 1 + i] == record(m.toolCalls[i], resolve(m.toolCalls[i]).value)
  {
    var calls := m.toolCalls;
    ProcessCallsCompletes(resolve, record, calls);
    ProcessCallsRecords(resolve, record, calls);
    var p := ProcessCalls(resolve, record, calls);
    var h3 := h + [Assistant(m.content, calls)] + p.turns;
    var x := Converse(model, prompt, resolve, record, h);
    assert x.history[..|h3|] == h3;
    forall i | 0 <= i < |calls|
      ensures x.history[|h| + 1 + i] == record(calls[i], resolve(calls[i]).value)
    {
      assert x.history[|h| + 1 + i] == h3[|h| + 1 + i] == p.turns[i];
    }
    assert x.history[|h|] == h3[|h|];
  }

  /**
   From position `at`, `hist` holds the assistant turn requesting `calls`
   followed by one tool turn per call, in order, each filed under its call's
   identifier and name.
   */
  ghost predicate RecordsRound(hist: seq<Turn>, at: int, content: Option<string>, calls: seq<ToolCall>) {
    0 <= at && at + 1 + |calls| <= |hist| && hist[at] == Assistant(content, calls)
    && forall i :: 0 <= i < |calls| ==>
         hist[at + 1 + i].Tool? && hist[at + 1 + i].toolCallId == calls[i].id && hist[at + 1 + i].name == calls[i].name
  }

  /** With a recorder that files each result under its call, a round that resolves every call is recorded in full. */
  lemma ConverseFilesEveryCall(model: ChatModel, prompt: seq<Turn> -> string, resolve: ToolCall -> Result<Outcome>,
                               record: (ToolCall, Outcome) -> Turn, h: seq<Turn>, m: ModelMessage)
    requires |h| > 0 && model(prompt(h), h, true) == Ok(m) && |m.toolCalls| > 0
    requires forall i :: 0 <= i < |m.toolCalls| ==> resolve(m.toolCalls[i]).Ok?
    requires FilesUnderCallId(record)
    ensures RecordsRound(Converse(model, prompt, resolve, record, h).history, |h|, m.content, m.toolCalls)
  {
    ConverseRecordsEveryCall(model, prompt, resolve, record, h, m);
  }

  /**
   After the tools have run, the exchange ends with the model's second answer
   as one more assistant turn, and the reply carries the figures of the calls;
   if that second call fails, no final turn is added.
   */
  lemma ConverseAnswersAfterTools(model: ChatModel, prompt: seq<Turn> -> string, resolve: ToolCall -> Result<Outcome>,
                                  record: (ToolCall, Outcome) -> Turn, h: seq<Turn>, m: ModelMessage)
    requires |h| > 0 && model(prompt(h), h, true) == Ok(m) && |m.toolCalls| > 0
    requires forall i :: 0 <= i < |m.toolCalls| ==> resolve(m.toolCalls[i]).Ok?
    ensures var x := Converse(model, prompt, resolve, record, h);
      var n := |m.toolCalls|;
      (x.outcome.Err? ==> |x.history| == |h| + 1 + n)
      && (x.outcome.Ok? ==>
            |x.history| == |h| + 2 + n && x.history[|h| + 1 + n] == Assistant(x.outcome.value.response, [])
            && x.outcome.value.figures == FiguresOf(resolve, m.toolCalls))
  {
    ProcessCallsCompletes(resolve, record, m.toolCalls);
  }

  /**
   When every requested call resolves, the exchange is the concluding model
   call on the history extended by the request and one result per call,
   carrying the figures the calls drew.
   */
  lemma ConverseConcludes(model: ChatModel, prompt: seq<Turn> -> string, resolve: ToolCall -> Result<Outcome>,
                          record: (ToolCall, Outcome) -> Turn, h: seq<Turn>, m: ModelMessage)
    requires |h| > 0 && model(prompt(h), h, true) == Ok(m) && |m.toolCalls| > 0
    requires forall i :: 0 <= i < |m.toolCalls| ==> resolve(m.toolCalls[i]).Ok?
    ensures var turns := ProcessCalls(resolve, record, m.toolCalls).turns;
      |turns| == |m.toolCalls|
      && Converse(model, prompt, resolve, record, h)
         == Conclude(model, prompt, h + [Assistant(m.content, m.toolCalls)] + turns, FiguresOf(resolve, m.toolCalls))
  {
    ProcessCallsCompletes(resolve, record, m.toolCalls);
  }

  /** When every requested call resolves, the exchange ends after the round as `AfterRound` describes. */
  lemma ConverseEndsAfterRound(model: ChatModel, prompt: seq<Turn> -> string, resolve: ToolCall -> Result<Outcome>,
                               record: (ToolCall, Outcome) -> Turn, h: seq<Turn>, m: ModelMessage)
    requires |h| > 0 && model(prompt(h), h, true) == Ok(m) && |m.toolCalls| > 0
    requires forall i :: 0 <= i < |m.toolCalls| ==> resolve(m.toolCalls[i]).Ok?
    ensures var x := Converse(model, prompt, resolve, record, h);
      var k := |h| + 1 + |m.toolCalls|;
      k <= |x.history|
      && (x.history, Answer(x)) == AfterRound(model(prompt(x.history[..k]), x.history[..k], false), x.history[..k],
                                              FiguresOf(resolve, m.toolCalls))
  {
    ConverseConcludes(model, prompt, resolve, record, h, m);
    var h3 := h + [Assistant(m.content, m.toolCalls)] + ProcessCalls(resolve, record, m.toolCalls).turns;
    ConcludeAnswer(model, prompt, h3, FiguresOf(resolve, m.toolCalls));
  }

  /**
   A call whose arguments cannot be parsed ends the exchange: the calls before
   it stay recorded, and the model is not asked for a final answer.
   */
  lemma ConverseStopsAtFailedCall(model: ChatModel, prompt: seq<Turn> -> string, resolve: ToolCall -> Result<Outcome>,
                                  record: (ToolCall, Outcome) -> Turn, h: seq<Turn>, m: ModelMessage, k: int)
    requires |h| > 0 && model(prompt(h), h, true) == Ok(m)
    requires 0 <= k < |m.toolCalls| && resolve(m.toolCalls[k]).Err?
    requires forall j :: 0 <= j < k ==> resolve(m.toolCalls[j]).Ok?
    ensures var x := Converse(model, prompt, resolve, record, h);
      x.outcome == Err(resolve(m.toolCalls[k]).error)
      && |x.history| == |h| + 1 + k && x.history[|h|] == Assistant(m.content, m.toolCalls)
      && forall j :: 0 <= j < k ==> x.history[|h| + 1 + j] == record(m.toolCalls[j], resolve(m.toolCalls[j]).value)
  {
    var calls := m.toolCalls;
    ProcessCallsFailsAt(resolve, record, calls, k);
    ProcessCallsRecords(resolve, record, calls);
    var p := ProcessCalls(resolve, record, calls);
    var h3 := h + [Assistant(m.content, calls)] + p.turns;
    var x := Converse(model, prompt, resolve, record, h);
    assert x == Exchange(h3, Err(p.failure.value));
    forall j | 0 <= j < k
      ensures x.history[|h| + 1 + j] == record(calls[j], resolve(calls[j]).value)
    {
      assert x.history[|h| + 1 + j] == p.turns[j];
    }
  }

  /** With a resolver like the agent's, every figure in a reply was requested through `create_visualization`. */
  lemma ConverseFiguresFromCharts(model: ChatModel, prompt: seq<Turn> -> string, resolve: ToolCall -> Result<Outcome>,
                                  record: (ToolCall, Outcome) -> Turn, h: seq<Turn>, f: Figure)
    requires |h| > 0 && ChartsOnly(resolve)
    requires var x := Converse(model, prompt, resolve, record, h); x.outcome.Ok? && f in x.outcome.value.figures
    ensures model(prompt(h), h, true).Ok?
    ensures exists call :: call in model(prompt(h), h, true).value.toolCalls && call.name == VisualizeTool
  {
    var m := model(prompt(h), h, true).value;
    var calls := m.toolCalls;
    var p := ProcessCalls(resolve, record, calls);
    assert p.failure.None? && |p.turns| == |calls|;
    ProcessCallsFigures(resolve, record, calls);
    FiguresOfOrigin(resolve, calls, f);
    var i :| 0 <= i < |calls| && resolve(calls[i]).value == Visualized(f);
    assert calls[i] in calls;
  }

  /** Turn `t` is an assistant turn requesting a tool call with identifier `id`. */
  predicate Requested(t: Turn, id: string) {
    t.Assistant? && exists call :: call in t.toolCalls && call.id == id
  }

  /**
   Every tool turn answers a call of the assistant turn it follows: the
   request is earlier, and only tool turns come between the two, as the chat
   API demands.
   */
  ghost predicate Answered(h: seq<Turn>) {
    forall i :: 0 <= i < |h| && h[i].Tool? ==> AnsweredAt(h, i)
  }

  /** The tool turn at `i` follows, after tool turns only, a request for its call. */
  ghost predicate AnsweredAt(h: seq<Turn>, i: int)
    requires 0 <= i < |h| && h[i].Tool?
  {
    exists j :: 0 <= j < i && Requested(h[j], h[i].toolCallId) && forall k :: j < k < i ==> h[k].Tool?
  }

  /** A recorder that files each result under the identifier and the tool name of the call it answers. */
  ghost predicate FilesUnderCallId(record: (ToolCall, Outcome) -> Turn) {
    forall call, o :: record(call, o).Tool? && record(call, o).toolCallId == call.id && record(call, o).name == call.name
  }

  /** The agent's recorder files each result under its call's identifier and tool name. */
  lemma RecorderFilesUnderCallId(serialize: Payload -> string)
    ensures FilesUnderCallId(Recorder(serialize))
  {
  }

  /** An exchange keeps every tool turn answered. */
  lemma ConverseKeepsAnswered(model: ChatModel, prompt: seq<Turn> -> string, resolve: ToolCall -> Result<Outcome>,
                              record: (ToolCall, Outcome) -> Turn, h: seq<Turn>)
    requires |h| > 0 && Answered(h) && FilesUnderCallId(record)
    ensures Answered(Converse(model, prompt, resolve, record, h).history)
  {
    var x := Converse(model, prompt, resolve, record, h);
    match model(prompt(h), h, true)
    case Err(_) =>
    case Ok(m) =>
      if |m.toolCalls| > 0 {
        var calls := m.toolCalls;
        var p := ProcessCalls(resolve, record, calls);
        var h3 := h + [Assistant(m.content, calls)] + p.turns;
        ProcessCallsRecords(resolve, record, calls);
        forall n | 0 <= n < |p.turns|
          ensures p.turns[n].Tool? && p.turns[n].toolCallId == calls[n].id
        {
          assert p.turns[n] == record(calls[n], resolve(calls[n]).value);
        }
        AnsweredRound(h, m.content, calls, p.turns);
        assert Answered(h3);
        if p.failure.None? && x.outcome.Ok? {
          AnsweredExtend(h3, Assistant(x.outcome.value.response, []));
        }
      } else {
        AnsweredExtend(h, Assistant(m.content, []));
      }
  }

  /**
   Appending an assistant turn that requests `calls`, then tool turns
   answering a prefix of those calls in order, keeps every tool turn answered.
   */
  lemma AnsweredRound(h: seq<Turn>, content: Option<string>, calls: seq<ToolCall>, turns: seq<Turn>)
    requires Answered(h) && |turns| <= |calls|
    requires forall n :: 0 <= n < |turns| ==> turns[n].Tool? && turns[n].toolCallId == calls[n].id
    ensures Answered(h + [Assistant(content, calls)] + turns)
  {
    var h3 := h + [Assistant(content, calls)] + turns;
    forall i | 0 <= i < |h3| && h3[i].Tool?
      ensures AnsweredAt(h3, i)
    {
      if i < |h| {
        assert AnsweredAt(h, i);
        var j :| 0 <= j < i && Requested(h[j], h[i].toolCallId) && forall k :: j < k < i ==> h[k].Tool?;
        assert h3[j] == h[j];
        assert forall k :: j < k < i ==> h3[k] == h[k];
      } else {
        assert i > |h|;
        var n := i - |h| - 1;
        assert h3[i] == turns[n];
        assert calls[n] in calls;
        assert Requested(h3[|h|], h3[i].toolCallId);
        forall k | |h| < k < i
          ensures h3[k].Tool?
        {
          assert h3[k] == turns[k - |h| - 1];
        }
      }
    }
  }

  /** Appending a turn that is not a tool turn keeps every tool turn answered. */
  lemma AnsweredExtend(h: seq<Turn>, t: Turn)
    requires Answered(h) && !t.Tool?
    ensures Answered(h + [t])
  {
    var h' := h + [t];
    forall i | 0 <= i < |h'| && h'[i].Tool?
      ensures AnsweredAt(h', i)
    {
      assert i < |h| && AnsweredAt(h, i);
      var j :| 0 <= j < i && Requested(h[j], h[i].toolCallId) && forall k :: j < k < i ==> h[k].Tool?;
      assert h'[j] == h[j];
      assert forall k :: j < k < i ==> h'[k] == h[k];
    }
  }

  /** A user turn answers nothing, so it keeps the history answered. */
  lemma RespondKeepsAnswered(s: Services, a: Agent, message: string)
    requires Answered(a.history)
    ensures Answered(Respond(s, a, message).0.history)
  {
    AnsweredExtend(a.history, User(message));
    RecorderFilesUnderCallId(s.serialize);
    ConverseKeepsAnswered(s.chatModel, Prompter(a.template), Resolver(s), Recorder(s.serialize), a.history + [User(message)]);
  }

  /**
   The `for` loop over the requested tools as the source runs it: each call is
   resolved (its arguments parsed, the tool run) and its result recorded,
   and a figure is kept when the result carries one, until a call fails.
   */
  method RunTools(resolve: ToolCall -> Result<Outcome>, record: (ToolCall, Outcome) -> Turn, calls: seq<ToolCall>)
    returns (p: Progress)
    ensures p == ProcessCalls(resolve, record, calls)
  {
    var turns: seq<Turn> := [];
    var figures: seq<Figure> := [];
    var i := 0;
    while i < |calls|
      invariant 0 <= i <= |calls|
      invariant ProcessCalls(resolve, record, calls[..i]) == Progress(turns, figures, None)
    {
      var call := calls[i];
      var resolved := resolve(call);
      if resolved.Err? {
        assert calls[..i + 1][..i] == calls[..i];
        ProcessCallsStops(resolve, record, calls, i + 1);
        return Progress(turns, figures, Some(resolved.error));
      }
      var result := resolved.value;
      ProcessCallsStep(resolve, record, calls, i);
      CarriesFigureIff(result);
      if CarriesFigure(result) {
        figures := figures + [result.figure];
      }
      turns := turns + [record(call, result)];
      i := i + 1;
    }
    assert calls[..i] == calls;
    return Progress(turns, figures, None);
  }

  /**
   `_chat_openai` step by step as the source runs it: the history grows in
   place as the model answers and the requested tools run.
   */
  method RunExchange(model: ChatModel, prompt: seq<Turn> -> string, resolve: ToolCall -> Result<Outcome>,
                     record: (ToolCall, Outcome) -> Turn, h0: seq<Turn>) returns (x: Exchange)
    requires |h0| > 0
    ensures x == Converse(model, prompt, resolve, record, h0)
  {
    var h := h0;
    var first := model(prompt(h), h, true);
    if first.Err? {
      return Exchange(h, Err(first.error));
    }
    var m := first.value;
    if |m.toolCalls| == 0 {
      h := h + [Assistant(m.content, [])];
      return Exchange(h, Ok(Reply(m.content, [])));
    }
    h := h + [Assistant(m.content, m.toolCalls)];
    var p := RunTools(resolve, record, m.toolCalls);
    h := h + p.turns;
    if p.failure.Some? {
      return Exchange(h, Err(p.failure.value));
    }
    var second := model(prompt(h), h, false);
    if second.Err? {
      return Exchange(h, Err(second.error));
    }
    h := h + [Assistant(second.value.content, [])];
    return Exchange(h, Ok(Reply(second.value.content, p.figures)));
  }

  /**
   The agent's `chat`: the user's turn is appended, the exchange runs, and a
   failure becomes the error reply.
   */
  method Chat(s: Services, a: Agent, message: string) returns (next: Agent, reply: Reply)
    ensures (next, reply) == Respond(s, a, message)
    ensures next.template == a.template
    ensures |next.history| > |a.history| && next.history[..|a.history| + 1] == a.history + [User(message)]
  {
    var h := a.history + [User(message)];
    var x := RunExchange(s.chatModel, Prompter(a.template), Resolver(s), Recorder(s.serialize), h);
    if x.outcome.Err? {
      reply := ErrorReply(x.outcome.error);
    } else {
      reply := x.outcome.value;
    }
    next := a.(history := x.history);
  }
}

=== FILE: rag_agent.dfy ===
/**
 The knowledge-base retriever: embeds the question, fetches the nearest
 documents and renders them as a numbered context block for the chat model.
 The embedding service, the vector store and the rendering of a percentage
 are parameters.
 */
module RagAgent {
  import opened Wrappers
  import opened Text

  /** One row of the similarity query: content, content type and similarity; each may be NULL. */
  datatype Hit = Hit(content: Option<string>, contentType: Option<string>, similarity: Option<real>)

  /**
   The services the retriever talks to: `embed` turns text into a vector,
   `nearest` yields every document ordered by distance to a vector, and
   `percent` renders a percentage with one decimal.
   */
  datatype KnowledgeBase = KnowledgeBase(
    embed: string -> Result<seq<real>>,
    nearest: seq<real> -> Result<seq<Hit>>,
    percent: real -> string)

  /** The number of documents the conversational agent asks for. */
  const DefaultTopK: int := 3

  const NotFound: string := "Релевантная информация не найдена."
  const ErrorText: string := "Ошибка при поиске информации."
  const Header: string := "Найденная информация из базы знаний:\n"

  /** The database's refusal of a negative LIMIT. */
  const NegativeLimitError: string := "LIMIT must not be negative"

  /**
   The rows of the similarity query: the `topK` documents nearest to the
   question's embedding, nearest first.
   */
  function Retrieve(kb: KnowledgeBase, query: string, topK: int): (r: Result<seq<Hit>>)
    ensures r.Ok? <==> kb.embed(query).Ok? && kb.nearest(kb.embed(query).value).Ok? && topK >= 0
    ensures r.Ok? ==> var ranking := kb.nearest(kb.embed(query).value).value;
      |r.value| <= topK && |r.value| <= |ranking|
      && (|r.value| == topK || |r.value| == |ranking|)
      && r.value == ranking[..|r.value|]
  {
    match kb.embed(query)
    case Err(e) => Err(e)
    case Ok(v) =>
      match kb.nearest(v)
      case Err(e) => Err(e)
      case Ok(rows) =>
        if topK < 0 then Err(NegativeLimitError)
        else if topK < |rows| then Ok(rows[..topK])
        else Ok(rows)
  }

  /** A row that can be rendered: rows with NULL content or similarity make the renderer raise. */
  predicate Renderable(h: Hit) {
    h.content.Some? && h.similarity.Some?
  }

  /** The heading line of the `i`-th document. */
  function Heading(i: nat, h: Hit, percent: real -> string): string
    requires Renderable(h)
  {
    NatToString(i) + ". [" + Show(h.contentType) + "] (релевантность: "
      + percent(h.similarity.value * 100.0) + "%)"
  }

  /**
   A heading starts with the document's number, a dot and the opening
   bracket, followed by the content type, and ends with the closing
   parenthesis of the relevance; the digits before the dot read back as the
   document's number.
   */
  lemma HeadingParts(i: nat, h: Hit, percent: real -> string)
    requires Renderable(h)
    ensures var r, lead := Heading(i, h, percent), NatToString(i) + ". [";
      StartsWith(r, lead) && |lead| + |Show(h.contentType)| < |r| && r[|r| - 1] == ')'
      && r[|lead|..|lead| + |Show(h.contentType)|] == Show(h.contentType)
    ensures var r, d := Heading(i, h, percent), |NatToString(i)|;
      d < |r| && r[d] == '.' && (forall k :: 0 <= k < d ==> IsDigit(r[k])) && DecimalValue(r[..d]) == i
  {
    var r, digits := Heading(i, h, percent), NatToString(i);
    var lead := digits + ". [";
    assert r == lead + Show(h.contentType) + ("] (релевантность: " + percent(h.similarity.value * 100.0) + "%)");
    assert r[..|lead|] == lead;
    assert r[..|digits|] == digits;
    assert r[|lead|..|lead| + |Show(h.contentType)|] == Show(h.contentType);
    NatToStringRoundTrip(i);
  }

  /** The lines for a run of documents numbered from `first`. */
  function Entries(hits: seq<Hit>, first: nat, percent: real -> string): (r: seq<string>)
    requires forall j :: 0 <= j < |hits| ==> Renderable(hits[j])
    ensures |r| == 3 * |hits|
    decreases |hits|
  {
    if |hits| == 0 then []
    else [Heading(first, hits[0], percent), hits[0].content.value, ""] + Entries(hits[1..], first + 1, percent)
  }

  /**
   Each document contributes three lines, in order: its heading, numbered
   from `first`, its content and an empty line.
   */
  lemma EntriesAt(hits: seq<Hit>, first: nat, percent: real -> string, j: nat)
    requires forall i :: 0 <= i < |hits| ==> Renderable(hits[i])
    requires j < |hits|
    ensures var r := Entries(hits, first, percent);
      r[3 * j] == Heading(first + j, hits[j], percent)
      && r[3 * j + 1] == hits[j].content.value
      && r[3 * j + 2] == ""
  {
    EntriesHeadingAt(hits, first, percent, j);
    EntriesContentAt(hits, first, percent, j);
    EntriesBlankAt(hits, first, percent, j);
  }

  /** Line 3j is the heading of document j, numbered `first + j`. */
  lemma {:induction false} EntriesHeadingAt(hits: seq<Hit>, first: nat, percent: real -> string, j: nat)
    requires forall i :: 0 <= i < |hits| ==> Renderable(hits[i])
    requires j < |hits|
    ensures Entries(hits, first, percent)[3 * j] == Heading(first + j, hits[j], percent)
    decreases j
  {
    if j > 0 {
      assert hits[1..][j - 1] == hits[j];
      EntriesHeadingAt(hits[1..], first + 1, percent, j - 1);
      assert Entries(hits, first, percent)[3 * j] == Entries(hits[1..], first + 1, percent)[3 * (j - 1)];
    }
  }

  /** Line 3j + 1 is the content of document j. */
  lemma {:induction false} EntriesContentAt(hits: seq<Hit>, first: nat, percent: real -> string, j: nat)
    requires forall i :: 0 <= i < |hits| ==> Renderable(hits[i])
    requires j < |hits|
    ensures Entries(hits, first, percent)[3 * j + 1] == hits[j].content.value
    decreases j
  {
    if j > 0 {
      assert hits[1..][j - 1] == hits[j];
      EntriesContentAt(hits[1..], first + 1, percent, j - 1);
      assert Entries(hits, first, percent)[3 * j + 1] == Entries(hits[1..], first + 1, percent)[3 * (j - 1) + 1];
    }
  }

  /** Line 3j + 2 is empty. */
  lemma {:induction false} EntriesBlankAt(hits: seq<Hit>, first: nat, percent: real -> string, j: nat)
    requires forall i :: 0 <= i < |hits| ==> Renderable(hits[i])
    requires j < |hits|
    ensures Entries(hits, first, percent)[3 * j + 2] == ""
    decreases j
  {
    if j > 0 {
      EntriesBlankAt(hits[1..], first + 1, percent, j - 1);
      assert Entries(hits, first, percent)[3 * j + 2] == Entries(hits[1..], first + 1, percent)[3 * (j - 1) + 2];
    }
  }

  /** The context block: the header, then the three lines of each document, all joined by newlines. */
  function Context(hits: seq<Hit>, percent: real -> string): (out: string)
    requires forall j :: 0 <= j < |hits| ==> Renderable(hits[j])
    ensures StartsWith(out, Header)
    ensures |hits| == 0 ==> out == Header
    ensures |hits| > 0 ==> out == Header + "\n" + Join(Entries(hits, 1, percent), "\n")
  {
    var parts := [Header] + Entries(hits, 1, percent);
    JoinStartsWithFirst(parts, "\n");
    if |hits| > 0 then
      JoinAppend([Header], Entries(hits, 1, percent), "\n");
      Join(parts, "\n")
    else Join(parts, "\n")
  }

  /**
   The retriever's `search_knowledge`. It never fails: no rows give one fixed
   text, any failure gives another, and otherwise the documents are listed
   under a header.
   */
  function SearchKnowledge(kb: KnowledgeBase, query: string, topK: int): (out: string)
    ensures out == NotFound || out == ErrorText || StartsWith(out, Header)
    ensures out == NotFound <==> Retrieve(kb, query, topK) == Ok([])
    ensures out == ErrorText <==> (Retrieve(kb, query, topK).Err?
      || exists j :: 0 <= j < |Retrieve(kb, query, topK).value| && !Renderable(Retrieve(kb, query, topK).value[j]))
    ensures Retrieve(kb, query, topK).Ok? && out != NotFound && out != ErrorText ==>
      out == Context(Retrieve(kb, query, topK).value, kb.percent)
  {
    match Retrieve(kb, query, topK)
    case Err(_) => ErrorText
    case Ok(hits) =>
      if |hits| == 0 then NotFound
      else if exists j :: 0 <= j < |hits| && !Renderable(hits[j]) then ErrorText
      else
        var out := Context(hits, kb.percent);
        assert out != NotFound && out != ErrorText by {
          assert |out| >= |Header| > |NotFound| && |Header| > |ErrorText|;
        }
        out
  }

  /**
   Every document retrieved appears in the context: its numbered heading and
   its content both occur in the text handed to the chat model.
   */
  lemma SearchKnowledgeListsEveryHit(kb: KnowledgeBase, query: string, topK: int, j: int)
    requires Retrieve(kb, query, topK).Ok?
    requires var hits := Retrieve(kb, query, topK).value;
      0 <= j < |hits| && forall i :: 0 <= i < |hits| ==> Renderable(hits[i])
    ensures var hits := Retrieve(kb, query, topK).value;
      var out := SearchKnowledge(kb, query, topK);
      Contains(out, Heading(j + 1, hits[j], kb.percent)) && Contains(out, hits[j].content.value)
  {
    var hits := Retrieve(kb, query, topK).value;
    var parts := [Header] + Entries(hits, 1, kb.percent);
    EntriesAt(hits, 1, kb.percent, j);
    assert parts[1 + 3 * j] == Heading(1 + j, hits[j], kb.percent);
    assert parts[2 + 3 * j] == hits[j].content.value;
    JoinContainsPart(parts, "\n", 1 + 3 * j);
    JoinContainsPart(parts, "\n", 2 + 3 * j);
  }

  /** With the agent's default, at most three documents are listed, the three nearest. */
  lemma DefaultSearchListsAtMostThree(kb: KnowledgeBase, query: string)
    requires Retrieve(kb, query, DefaultTopK).Ok?
    ensures |Retrieve(kb, query, DefaultTopK).value| <= 3
    ensures var ranking := kb.nearest(kb.embed(query).value).value;
      Retrieve(kb, query, DefaultTopK).value == ranking[..|Retrieve(kb, query, DefaultTopK).value|]
  {
  }
}

=== FILE: records.dfy ===
/**
 Rows and values as they flow between the store, the JSON layer and the
 chart builder.
 */
module Records {

  /** A column value as the store or a JSON document delivers it; `Other` keeps the text of any other kind (dates, decimals). */
  datatype Scalar = Null | Flag(b: bool) | Number(i: int) | Str(s: string) | Other(repr: string)

  /** An order-preserving mapping from column name to value, as a Python `dict`; its column names are taken to be distinct. */
  type Record = seq<(string, Scalar)>

  /** A row as the database cursor yields it: distinct column names and their values, in select-list order. */
  datatype StoreRow = StoreRow(columns: seq<(string, Scalar)>)
}

=== FILE: sql_agent.dfy ===
/**
 The SQL generator agent: asks a language model for a query and cleans the
 Markdown code fences the model may wrap it in. The model is a parameter.
 */
module SqlAgent {
  import opened Wrappers
  import opened Text

  /** The opening (and closing) of a Markdown code block. */
  const Fence: string := "```"

  /** A code block opening tagged with the SQL language. */
  const SqlFence: string := "```sql"

  const GenerationErrorPrefix: string := "Ошибка генерации SQL: "

  /** What Python says when `.strip()` is applied to a message without content. */
  const NoneStripError: string := "'NoneType' object has no attribute 'strip'"

  /**
   The SQL model: the content of its first choice for a query description
   (`None` when the message has no content), or the failure it raised.
   */
  type SqlModel = string -> Result<Option<string>>

  /** The number of backticks that `s` starts with. */
  function LeadTicks(s: string): (n: nat)
    ensures n <= |s|
  {
    if |s| > 0 && s[0] == '`' then 1 + LeadTicks(s[1..]) else 0
  }

  /** The leading run is all backticks, and what follows it is not one. */
  lemma {:induction false} LeadTicksRun(s: string)
    ensures forall i :: 0 <= i < LeadTicks(s) ==> s[i] == '`'
    ensures LeadTicks(s) < |s| ==> s[LeadTicks(s)] != '`'
  {
    if |s| > 0 && s[0] == '`' {
      LeadTicksRun(s[1..]);
    }
  }

  /** The leading backtick run is determined by the characters. */
  lemma {:induction false} LeadTicksUnique(s: string, n: nat)
    requires n <= |s|
    requires forall i :: 0 <= i < n ==> s[i] == '`'
    requires n < |s| ==> s[n] != '`'
    ensures LeadTicks(s) == n
  {
    if n > 0 {
      assert s[0] == '`';
      LeadTicksUnique(s[1..], n - 1);
    }
  }

  /** A text starts with a fence exactly when it starts with three backticks. */
  lemma FenceIffTicks(s: string)
    ensures StartsWith(s, Fence) <==> LeadTicks(s) >= 3
  {
    LeadTicksRun(s);
    if LeadTicks(s) >= 3 {
      assert s[..3] == Fence;
    }
  }

  /** Removing one fence shortens the leading backtick run by three. */
  lemma LeadTicksAfterFence(s: string)
    requires LeadTicks(s) >= 3
    ensures LeadTicks(s[3..]) == LeadTicks(s) - 3
  {
    LeadTicksRun(s);
    LeadTicksUnique(s[3..], LeadTicks(s) - 3);
  }

  /**
   Removing every fence leaves none behind. Removal cannot join backticks into
   a new fence: each run of backticks loses a multiple of three and keeps the
   remainder, so what is left of a run is shorter than a fence.
   */
  lemma {:induction false} RemovalLeavesNoFence(s: string)
    ensures !Contains(ReplaceAll(s, Fence, ""), Fence)
    ensures LeadTicks(ReplaceAll(s, Fence, "")) == LeadTicks(s) % 3
    decreases |s|
  {
    var r := ReplaceAll(s, Fence, "");
    FenceIffTicks(s);
    if |s| < 3 {
      ShortNeverContains(s, Fence);
    } else if StartsWith(s, Fence) {
      RemovalLeavesNoFence(s[3..]);
      assert r == ReplaceAll(s[3..], Fence, "");
      LeadTicksAfterFence(s);
    } else {
      RemovalLeavesNoFence(s[1..]);
      KeptCharAddsNoFence(s, ReplaceAll(s[1..], Fence, ""));
    }
  }

  /** A character kept in front of a fence-free rest cannot complete a fence. */
  lemma KeptCharAddsNoFence(s: string, rest: string)
    requires |s| > 0 && LeadTicks(s) < 3
    requires !Contains(rest, Fence) && LeadTicks(rest) == LeadTicks(s[1..]) % 3
    ensures !Contains([s[0]] + rest, Fence) && LeadTicks([s[0]] + rest) == LeadTicks(s) % 3
  {
    var r := [s[0]] + rest;
    assert r[1..] == rest;
    FenceIffTicks(r);
    if Contains(r, Fence) {
      ContainsStep(r, Fence);
    }
  }

  /** Removing the fences and trimming the whitespace around what remains. */
  function Unfence(s: string): (r: string)
    ensures IsTrimmed(r) && !Contains(r, Fence)
    ensures |r| <= |s|
  {
    var t := ReplaceAll(s, Fence, "");
    RemovalLeavesNoFence(s);
    StripKeepsAbsence(t, Fence);
    Strip(t)
  }

  /** An SQL-tagged opening starts with a plain fence too. */
  lemma SqlFenceIsFence(s: string)
    requires StartsWith(s, SqlFence)
    ensures StartsWith(s, Fence)
  {
    assert s[..3] == s[..6][..3];
  }

  /**
   Strips a Markdown code block from model output. Only text that begins with a
   fence is touched; for such text the result is trimmed and holds no fence at all.
   */
  function CleanSql(s: string): (r: string)
    ensures !StartsWith(s, Fence) ==> r == s
    ensures StartsWith(s, Fence) ==> IsTrimmed(r) && !Contains(r, Fence)
    ensures |r| <= |s|
  {
    if StartsWith(s, SqlFence) then
      SqlFenceIsFence(s);
      Unfence(ReplaceAll(s, SqlFence, ""))
    else if StartsWith(s, Fence) then Unfence(s)
    else s
  }

  /** Cleaning is idempotent: a cleaned query is left as it is. */
  lemma CleanSqlIdempotent(s: string)
    ensures CleanSql(CleanSql(s)) == CleanSql(s)
  {
    var r := CleanSql(s);
    if StartsWith(s, Fence) && StartsWith(r, Fence) {
      PrefixContained(r, Fence);
    }
  }

  /** An SQL-tagged code block around fence-free text yields that text, trimmed. */
  lemma CleanSqlUnwrapsSqlBlock(m: string)
    requires '`' !in m
    ensures CleanSql(SqlFence + m + Fence) == Strip(m)
  {
    var s := SqlFence + m + Fence;
    assert StartsWith(s, SqlFence) by {
      assert s[..6] == SqlFence;
    }
    assert s[6..] == m + Fence;
    assert ReplaceAll(s, SqlFence, "") == m + Fence by {
      ReplaceAllSkips(m, Fence, SqlFence, "");
      assert ReplaceAll(Fence, SqlFence, "") == Fence;
    }
    assert ReplaceAll(m + Fence, Fence, "") == m by {
      ReplaceAllSkips(m, Fence, Fence, "");
      FenceRemovesItself();
    }
  }

  /** An untagged code block around fence-free text that does not begin with `sql` yields that text, trimmed. */
  lemma CleanSqlUnwrapsPlainBlock(m: string)
    requires '`' !in m && !StartsWith(m, "sql")
    ensures CleanSql(Fence + m + Fence) == Strip(m)
  {
    var s := Fence + m + Fence;
    assert StartsWith(s, Fence) by {
      assert s[..3] == Fence;
    }
    assert !StartsWith(s, SqlFence) by {
      if StartsWith(s, SqlFence) {
        TagAfterFence(m);
      }
    }
    assert s == Fence + (m + Fence);
    assert ReplaceAll(s, Fence, "") == m by {
      FenceRemovesItself();
      assert s[3..] == m + Fence;
      ReplaceAllSkips(m, Fence, Fence, "");
    }
  }

  /** Text opening with the SQL tag once fenced must itself begin with `sql`. */
  lemma TagAfterFence(m: string)
    requires '`' !in m && StartsWith(Fence + m + Fence, SqlFence)
    ensures StartsWith(m, "sql")
  {
    var s := Fence + m + Fence;
    assert s[..6][3..] == "sql";
    if |m| < 3 {
      ClosingFenceAt(m);
      assert false;
    }
    assert m[..3] == s[3..6];
  }

  lemma ClosingFenceAt(m: string)
    ensures (Fence + m + Fence)[3 + |m|] == '`'
  {
  }

  lemma FenceRemovesItself()
    ensures ReplaceAll(Fence, Fence, "") == ""
  {
    assert Fence[3..] == "";
  }

  /**
   The agent's `generate_sql`: the model's answer is stripped and cleaned; any
   failure, including a reply without content, is re-raised with a fixed prefix.
   */
  function GenerateSql(model: SqlModel, description: string): (r: Result<string>)
    ensures r.Ok? <==> model(description).Ok? && model(description).value.Some?
    ensures model(description).Err? ==> r == Err(GenerationErrorPrefix + model(description).error)
    ensures model(description) == Ok(None) ==> r == Err(GenerationErrorPrefix + NoneStripError)
    ensures r.Ok? ==> IsTrimmed(r.value) && |r.value| <= |model(description).value.value|
    ensures r.Ok? && StartsWith(Strip(model(description).value.value), Fence) ==> !Contains(r.value, Fence)
    ensures r.Ok? && !StartsWith(Strip(model(description).value.value), Fence) ==>
      r.value == Strip(model(description).value.value)
  {
    match model(description)
    case Err(e) => Err(GenerationErrorPrefix + e)
    case Ok(None) => Err(GenerationErrorPrefix + NoneStripError)
    case Ok(Some(content)) => Ok(CleanSql(Strip(content)))
  }

  /**
   An answer that is an SQL-tagged code block, possibly with whitespace around
   it, comes back as the bare query it wraps.
   */
  lemma GenerateSqlUnwrapsFencedAnswer(model: SqlModel, description: string, a: string, m: string, b: string)
    requires AllSpace(a) && AllSpace(b) && '`' !in m
    requires model(description) == Ok(Some(a + (SqlFence + m + Fence) + b))
    ensures GenerateSql(model, description) == Ok(Strip(m))
  {
    var block := SqlFence + m + Fence;
    assert block[0] == '`' && block[|block| - 1] == '`';
    StripUnique(a, block, b);
    CleanSqlUnwrapsSqlBlock(m);
  }
}

=== FILE: sql_executor.dfy ===
/**
 The SQL guard and executor: a lexical keyword denylist in front of the store.
 The store itself (a database connection) is a parameter.
 */
module SqlExecutor {
  import opened Wrappers
  import opened Text
  import opened Records

  /** The keywords whose presence anywhere in the upper-cased query refuses it. */
  const Forbidden: seq<string> :=
    ["DROP", "DELETE", "TRUNCATE", "UPDATE", "INSERT", "ALTER", "CREATE", "GRANT", "REVOKE"]

  const RefusalMessage: string :=
    "Запрос содержит запрещенные операции. Разрешены только SELECT запросы."

  const ExecutionErrorPrefix: string := "Ошибка выполнения SQL: "

  /** The store: runs a query and yields its rows, or fails with a message. */
  type Store = string -> Result<seq<StoreRow>>

  /** The first keyword of `keys`, in list order, that occurs in `text`. */
  function FirstForbidden(text: string, keys: seq<string>): (r: Option<string>)
    ensures r.Some? ==> r.value in keys && Contains(text, r.value)
    ensures r.None? <==> forall k :: k in keys ==> !Contains(text, k)
  {
    if |keys| == 0 then None
    else if Contains(text, keys[0]) then Some(keys[0])
    else FirstForbidden(text, keys[1..])
  }

  /** The guard: true when no forbidden keyword occurs in the upper-cased query. */
  function ValidateSql(q: string): (ok: bool)
    ensures ok <==> forall k :: k in Forbidden ==> !Contains(Upper(q), k)
  {
    FirstForbidden(Upper(q), Forbidden).None?
  }

  /**
   Running a query: a store failure is re-raised with a fixed prefix; otherwise
   every row becomes one mapping, in the order the store returned them.
   */
  function ExecuteSql(store: Store, q: string): (r: Result<seq<Record>>)
    ensures r.Err? <==> store(q).Err?
    ensures r.Err? ==> r.error == ExecutionErrorPrefix + store(q).error
    ensures r.Ok? ==> |r.value| == |store(q).value|
    ensures r.Ok? ==> forall i :: 0 <= i < |r.value| ==> r.value[i] == store(q).value[i].columns
  {
    match store(q)
    case Err(e) => Err(ExecutionErrorPrefix + e)
    case Ok(rows) =>
      if |rows| > 0 then Ok(seq(|rows|, i requires 0 <= i < |rows| => rows[i].columns)) else Ok([])
  }

  /** The guarded entry point: a query naming a forbidden keyword is refused before the store is consulted. */
  function ExecuteSafeSql(store: Store, q: string): (r: Result<seq<Record>>)
    ensures (exists k :: k in Forbidden && Contains(Upper(q), k)) ==> r == Err(RefusalMessage)
    ensures ValidateSql(q) ==> r == ExecuteSql(store, q)
  {
    if !ValidateSql(q) then Err(RefusalMessage) else ExecuteSql(store, q)
  }

  /** A refused query's outcome does not depend on the store at all: it never reaches it. */
  lemma RefusedQueryIgnoresStore(store1: Store, store2: Store, q: string)
    requires !ValidateSql(q)
    ensures ExecuteSafeSql(store1, q) == ExecuteSafeSql(store2, q) == Err(RefusalMessage)
  {
  }

  /** An accepted query yields exactly what the store yields, row for row. */
  lemma AcceptedQueryPassesRowsThrough(store: Store, q: string, rows: seq<StoreRow>)
    requires ValidateSql(q) && store(q) == Ok(rows)
    ensures ExecuteSafeSql(store, q).Ok?
    ensures |ExecuteSafeSql(store, q).value| == |rows|
    ensures forall i :: 0 <= i < |rows| ==> ExecuteSafeSql(store, q).value[i] == rows[i].columns
  {
  }

  /** The guard ignores letter case. */
  lemma ValidateSqlCaseInsensitive(q: string)
    ensures ValidateSql(Upper(q)) == ValidateSql(q)
  {
    UpperIdempotent(q);
  }

  /** Once refused, a query stays refused whatever text surrounds it. */
  lemma ValidateSqlMonotone(a: string, s: string, b: string)
    requires !ValidateSql(s)
    ensures !ValidateSql(a + s + b)
  {
    var k :| k in Forbidden && Contains(Upper(s), k);
    UpperConcat(a + s, b);
    UpperConcat(a, s);
    ContainsInContext(Upper(a), Upper(s), Upper(b), k);
  }

  /** The plain read-only query passes the guard. */
  lemma ValidateSqlAcceptsPlainSelect(q: string)
    requires q == "SELECT * FROM sales"
    ensures ValidateSql(q)
  {
    UpperOfPlainSelect(q);
    PlainSelectHasNoKeyword(Upper(q));
  }

  lemma PlainSelectHasNoKeyword(u: string)
    requires u == "SELECT * FROM SALES"
    ensures forall k :: k in Forbidden ==> !Contains(u, k)
  {
    PlainSelectLetters(u);
    PlainSelectLacksAlter(u);
    PlainSelectLacksCreate(u);
    KeywordsNeedingAbsentLetters(u);
  }

  lemma UpperOfPlainSelect(q: string)
    requires q == "SELECT * FROM sales"
    ensures Upper(q) == "SELECT * FROM SALES"
  {
  }

  lemma PlainSelectLetters(u: string)
    requires u == "SELECT * FROM SALES"
    ensures 'D' !in u && 'U' !in u && 'I' !in u && 'G' !in u && 'V' !in u
  {
  }

  /** Seven of the keywords each have a letter (D, U, I, G or V) that the text lacks. */
  lemma KeywordsNeedingAbsentLetters(u: string)
    requires 'D' !in u && 'U' !in u && 'I' !in u && 'G' !in u && 'V' !in u
    ensures !Contains(u, "DROP") && !Contains(u, "DELETE") && !Contains(u, "TRUNCATE")
    ensures !Contains(u, "UPDATE") && !Contains(u, "INSERT")
    ensures !Contains(u, "GRANT") && !Contains(u, "REVOKE")
  {
    MissingCharNotContained(u, "DROP", 0);
    MissingCharNotContained(u, "DELETE", 0);
    MissingCharNotContained(u, "TRUNCATE", 2);
    MissingCharNotContained(u, "UPDATE", 0);
    MissingCharNotContained(u, "INSERT", 0);
    MissingCharNotContained(u, "GRANT", 0);
    MissingCharNotContained(u, "REVOKE", 2);
  }

  /** Every letter of ALTER is in the query, but the only A comes too late to start it. */
  lemma PlainSelectLacksAlter(u: string)
    requires u == "SELECT * FROM SALES"
    ensures !Contains(u, "ALTER")
  {
    forall i | OccursAt(u, "ALTER", i) ensures false {
      OccurrenceChars(u, "ALTER", i, 0);
    }
  }

  /** Every letter of CREATE is in the query, but its only C is followed by T, not R. */
  lemma PlainSelectLacksCreate(u: string)
    requires u == "SELECT * FROM SALES"
    ensures !Contains(u, "CREATE")
  {
    forall i | OccursAt(u, "CREATE", i) ensures false {
      OccurrenceChars(u, "CREATE", i, 0);
      assert i == 4;
      OccurrenceChars(u, "CREATE", 4, 1);
    }
  }

  /** The filter is lexical: a column name containing a keyword is refused like the statement itself. */
  lemma ValidateSqlRefusesKeywordInIdentifier(q: string)
    requires q == "select created_at from t"
    ensures !ValidateSql(q)
  {
    PrefixContained(Upper("create"), "CREATE");
    assert q == "select " + "create" + "d_at from t";
    ValidateSqlMonotone("select ", "create", "d_at from t");
  }

  /** A DROP appended to any statement is refused, whatever the table it names. */
  lemma ValidateSqlRefusesAppendedDrop(stmt: string, table: string)
    ensures !ValidateSql(stmt + "; DROP TABLE " + table)
  {
    PrefixContained(Upper("DROP"), "DROP");
    assert stmt + "; DROP TABLE " + table == (stmt + "; ") + "DROP" + (" TABLE " + table);
    ValidateSqlMonotone(stmt + "; ", "DROP", " TABLE " + table);
  }
}

=== FILE: text.dfy ===
/**
 The Python string operations the pharmacy assistant relies on, restricted
 to what its code uses: `startswith`, `in`, `upper` and `capitalize` (ASCII
 letters only), `strip`, `replace`, `"sep".join` and `str(int)`.
 */
module Text {
  import opened Wrappers

  /** Python `s.startswith(p)`. */
  predicate StartsWith(s: string, p: string) {
    |p| <= |s| && s[..|p|] == p
  }

  /** An occurrence of `p` begins at position `i` of `s`. */
  predicate OccursAt(s: string, p: string, i: int) {
    0 <= i <= |s| && StartsWith(s[i..], p)
  }

  /** Python `p in s`: some position of `s` begins an occurrence of `p`. */
  predicate Contains(s: string, p: string) {
    exists i | 0 <= i <= |s| :: OccursAt(s, p, i)
  }

  /** A text contains every prefix it starts with. */
  lemma PrefixContained(s: string, p: string)
    requires StartsWith(s, p)
    ensures Contains(s, p)
  {
    assert s[0..] == s;
    assert OccursAt(s, p, 0);
  }

  /**
   The scanning reading of `Contains`: `p` occurs in a non-empty `s` when it
   starts `s` or occurs in the rest of `s`.
   */
  lemma ContainsStep(s: string, p: string)
    requires |s| > 0
    ensures Contains(s, p) <==> StartsWith(s, p) || Contains(s[1..], p)
  {
    assert s[0..] == s;
    if StartsWith(s, p) {
      PrefixContained(s, p);
    }
    if Contains(s[1..], p) {
      var i :| OccursAt(s[1..], p, i);
      assert OccursAt(s[1..], p, i);
      assert s[1..][i..] == s[i + 1..];
      assert OccursAt(s, p, i + 1);
    }
    if Contains(s, p) && !StartsWith(s, p) {
      var i :| OccursAt(s, p, i);
      assert OccursAt(s, p, i);
      assert s[1..][i - 1..] == s[i..];
      assert OccursAt(s[1..], p, i - 1);
    }
  }

  /** Each character of an occurrence matches the pattern. */
  lemma OccurrenceChars(s: string, p: string, i: int, j: int)
    requires OccursAt(s, p, i) && 0 <= j < |p|
    ensures i + j < |s| && s[i + j] == p[j]
  {
    assert s[i..][..|p|][j] == p[j];
  }

  /** A pattern with a character that the text lacks does not occur in it. */
  lemma MissingCharNotContained(s: string, p: string, j: int)
    requires 0 <= j < |p| && p[j] !in s
    ensures !Contains(s, p)
  {
    if Contains(s, p) {
      var i :| OccursAt(s, p, i);
      assert OccursAt(s, p, i);
      OccurrenceChars(s, p, i, j);
    }
  }

  /** A text shorter than the pattern cannot contain it. */
  lemma ShortNeverContains(s: string, p: string)
    requires |s| < |p|
    ensures !Contains(s, p)
  {
  }

  /** Substring membership survives any text put before or after. */
  lemma ContainsInContext(a: string, s: string, b: string, p: string)
    requires Contains(s, p)
    ensures Contains(a + s + b, p)
  {
    var i :| OccursAt(s, p, i);
    assert OccursAt(s, p, i);
    var t := a + s + b;
    assert t[|a| + i..] == s[i..] + b;
    assert t[|a| + i..][..|p|] == s[i..][..|p|];
    assert OccursAt(t, p, |a| + i);
  }

  /** Membership in a slice implies membership in the whole text. */
  lemma ContainsWithin(s: string, i: int, j: int, p: string)
    requires 0 <= i <= j <= |s| && Contains(s[i..j], p)
    ensures Contains(s, p)
  {
    assert s == s[..i] + s[i..j] + s[j..];
    ContainsInContext(s[..i], s[i..j], s[j..], p);
  }

  /** Python `str.upper` on one character, for ASCII letters. */
  function UpperChar(c: char): char {
    if 'a' <= c <= 'z' then (c as int - 32) as char else c
  }

  /** Python `str.lower` on one character, for ASCII letters. */
  function LowerChar(c: char): char {
    if 'A' <= c <= 'Z' then (c as int + 32) as char else c
  }

  function Upper(s: string): (r: string)
    ensures |r| == |s|
  {
    seq(|s|, i requires 0 <= i < |s| => UpperChar(s[i]))
  }

  function Lower(s: string): (r: string)
    ensures |r| == |s|
  {
    seq(|s|, i requires 0 <= i < |s| => LowerChar(s[i]))
  }

  /** Upper-casing twice changes nothing more than upper-casing once. */
  lemma UpperIdempotent(s: string)
    ensures Upper(Upper(s)) == Upper(s)
  {
  }

  /** Upper-casing works character by character, so it splits over concatenation. */
  lemma UpperConcat(a: string, b: string)
    ensures Upper(a + b) == Upper(a) + Upper(b)
  {
  }

  /** Python `str.capitalize`: first character upper-case, the rest lower-case. */
  function Capitalize(s: string): (r: string)
    ensures |r| == |s|
    ensures |s| > 0 ==> r[0] == UpperChar(s[0])
    ensures forall i :: 0 < i < |s| ==> r[i] == LowerChar(s[i])
  {
    if |s| == 0 then "" else [UpperChar(s[0])] + Lower(s[1..])
  }

  /** Python `str.isspace` on one character. */
  predicate IsSpace(c: char) {
    var n := c as int;
    n == 0x20 || 0x09 <= n <= 0x0D || 0x1C <= n <= 0x1F || n == 0x85 || n == 0xA0
    || n == 0x1680 || 0x2000 <= n <= 0x200A || n == 0x2028 || n == 0x2029
    || n == 0x202F || n == 0x205F || n == 0x3000
  }

  predicate AllSpace(s: string) {
    forall i :: 0 <= i < |s| ==> IsSpace(s[i])
  }

  /** Neither starts nor ends with whitespace. */
  predicate IsTrimmed(s: string) {
    |s| == 0 || (!IsSpace(s[0]) && !IsSpace(s[|s| - 1]))
  }

  /** The length of the whitespace run that `s` starts with. */
  function LeadingSpaces(s: string): (n: nat)
    ensures n <= |s|
    ensures forall i :: 0 <= i < n ==> IsSpace(s[i])
    ensures n < |s| ==> !IsSpace(s[n])
  {
    if |s| > 0 && IsSpace(s[0]) then 1 + LeadingSpaces(s[1..]) else 0
  }

  /** The length of the whitespace run that `s` ends with. */
  function TrailingSpaces(s: string): (n: nat)
    ensures n <= |s|
    ensures forall i :: |s| - n <= i < |s| ==> IsSpace(s[i])
    ensures n < |s| ==> !IsSpace(s[|s| - n - 1])
  {
    if |s| > 0 && IsSpace(s[|s| - 1]) then 1 + TrailingSpaces(s[..|s| - 1]) else 0
  }

  /** Python `str.strip()` with no argument. */
  function Strip(s: string): (r: string)
    ensures IsTrimmed(r)
    ensures |r| <= |s|
  {
    var t := s[LeadingSpaces(s)..];
    t[..|t| - TrailingSpaces(t)]
  }

  /** What `strip` removes is whitespace, and what it keeps is a contiguous part of the input. */
  lemma StripDecomposes(s: string)
    ensures exists i :: 0 <= i <= |s| - |Strip(s)| && AllSpace(s[..i])
                        && s[i..i + |Strip(s)|] == Strip(s) && AllSpace(s[i + |Strip(s)|..])
  {
    var i := LeadingSpaces(s);
    var t := s[i..];
    var r := Strip(s);
    assert r == t[..|t| - TrailingSpaces(t)];
    assert s[i..i + |r|] == r;
    assert s[i + |r|..] == t[|t| - TrailingSpaces(t)..];
    assert AllSpace(s[..i]) && AllSpace(s[i + |r|..]);
  }

  lemma {:induction false} LeadingSpacesOf(a: string, t: string)
    requires AllSpace(a)
    requires |t| > 0 ==> !IsSpace(t[0])
    ensures LeadingSpaces(a + t) == |a|
    decreases |a|
  {
    if |a| > 0 {
      assert (a + t)[1..] == a[1..] + t;
      LeadingSpacesOf(a[1..], t);
    } else {
      assert a + t == t;
    }
  }

  lemma {:induction false} TrailingSpacesOf(t: string, b: string)
    requires AllSpace(b)
    requires |t| > 0 ==> !IsSpace(t[|t| - 1])
    ensures TrailingSpaces(t + b) == |b|
    decreases |b|
  {
    if |b| > 0 {
      assert (t + b)[..|t + b| - 1] == t + b[..|b| - 1];
      TrailingSpacesOf(t, b[..|b| - 1]);
    } else {
      assert t + b == t;
    }
  }

  /**
   `strip` is determined by its result: whitespace around a trimmed middle is
   exactly what gets removed. With empty surroundings this is idempotence.
   */
  lemma StripUnique(a: string, m: string, b: string)
    requires AllSpace(a) && AllSpace(b) && IsTrimmed(m)
    ensures Strip(a + m + b) == m
  {
    var s := a + m + b;
    if |m| == 0 {
      assert s == a + b;
      assert AllSpace(s);
      LeadingSpacesOf(s, "");
      assert s + "" == s;
    } else {
      assert s == a + (m + b);
      LeadingSpacesOf(a, m + b);
      var t := s[|a|..];
      assert t == m + b;
      TrailingSpacesOf(m, b);
    }
  }

  /** `strip` only removes text, so it cannot create an occurrence. */
  lemma StripKeepsAbsence(s: string, p: string)
    requires !Contains(s, p)
    ensures !Contains(Strip(s), p)
  {
    var i := LeadingSpaces(s);
    var t := s[i..];
    var k := |t| - TrailingSpaces(t);
    assert Strip(s) == t[..k] == s[i..i + k];
    if Contains(s[i..i + k], p) {
      ContainsWithin(s, i, i + k, p);
    }
  }


  /**
   Python `s.replace(p, r)` for a non-empty pattern: every leftmost,
   non-overlapping occurrence of `p` is replaced, scanning left to right.
   */
  function ReplaceAll(s: string, p: string, r: string): (res: string)
    requires |p| > 0
    ensures |r| <= |p| ==> |res| <= |s|
    decreases |s|
  {
    if |s| < |p| then s
    else if StartsWith(s, p) then r + ReplaceAll(s[|p|..], p, r)
    else [s[0]] + ReplaceAll(s[1..], p, r)
  }

  /** A text without the pattern comes back from `replace` unchanged. */
  lemma {:induction false} ReplaceAllAbsent(s: string, p: string, r: string)
    requires |p| > 0 && !Contains(s, p)
    ensures ReplaceAll(s, p, r) == s
    decreases |s|
  {
    if |s| >= |p| {
      ContainsStep(s, p);
      if StartsWith(s, p) {
        assert false;
      }
      ReplaceAllAbsent(s[1..], p, r);
    }
  }

  /** Where `p` does not start, `replace` keeps the first character and moves on. */
  lemma ReplaceAllKeeps(s: string, p: string, r: string)
    requires 0 < |p| <= |s| && s[0] != p[0]
    ensures ReplaceAll(s, p, r) == [s[0]] + ReplaceAll(s[1..], p, r)
  {
    assert !StartsWith(s, p) by {
      assert s[..|p|][0] == s[0];
    }
  }

  /** Text before which no occurrence of `p` starts passes through `replace` unchanged. */
  lemma {:induction false} ReplaceAllPasses(a: string, b: string, p: string, r: string)
    requires |p| > 0 && forall i :: 0 <= i < |a| ==> !OccursAt(a + b, p, i)
    ensures ReplaceAll(a + b, p, r) == a + ReplaceAll(b, p, r)
    decreases |a|
  {
    var s := a + b;
    if |a| == 0 {
      assert s == b;
    } else if |s| < |p| {
      assert ReplaceAll(b, p, r) == b;
    } else {
      assert s[0..] == s && !OccursAt(s, p, 0);
      assert s[1..] == a[1..] + b;
      forall i | 0 <= i < |a| - 1
        ensures !OccursAt(a[1..] + b, p, i)
      {
        assert (a[1..] + b)[i..] == s[i + 1..];
        assert !OccursAt(s, p, i + 1);
      }
      ReplaceAllPasses(a[1..], b, p, r);
      assert [a[0]] + (a[1..] + ReplaceAll(b, p, r)) == a + ReplaceAll(b, p, r);
    }
  }

  /** Text lacking the pattern's first character passes through `replace` unchanged. */
  lemma ReplaceAllSkips(a: string, b: string, p: string, r: string)
    requires |p| > 0 && p[0] !in a
    ensures ReplaceAll(a + b, p, r) == a + ReplaceAll(b, p, r)
  {
    forall i | 0 <= i < |a|
      ensures !OccursAt(a + b, p, i)
    {
      assert (a + b)[i] == a[i];
      if OccursAt(a + b, p, i) {
        OccurrenceChars(a + b, p, i, 0);
      }
    }
    ReplaceAllPasses(a, b, p, r);
  }

  /**
   Wherever the first occurrence of `p` stands, `replace` keeps the text
   before it, puts `r` in its place and carries on after it.
   */
  lemma ReplaceAllFirst(a: string, b: string, p: string, r: string)
    requires |p| > 0 && forall i :: 0 <= i < |a| ==> !OccursAt(a + p + b, p, i)
    ensures ReplaceAll(a + p + b, p, r) == a + r + ReplaceAll(b, p, r)
  {
    assert a + p + b == a + (p + b);
    ReplaceAllPasses(a, p + b, p, r);
    assert (p + b)[..|p|] == p && (p + b)[|p|..] == b;
    assert ReplaceAll(p + b, p, r) == r + ReplaceAll(b, p, r);
  }

  /** Shifted by `d`, the pattern agrees with itself wherever the two overlap. */
  predicate SelfOverlaps(p: string, d: int) {
    forall j :: 0 <= d <= j < |p| ==> p[j] == p[j - d]
  }

  /** No proper shift of the pattern agrees with it: two occurrences can never overlap. */
  predicate Unbordered(p: string) {
    forall d :: 0 < d < |p| ==> !SelfOverlaps(p, d)
  }

  /**
   A pattern that cannot overlap itself, placed after a text that lacks it,
   is the first occurrence: no earlier one can start inside the text.
   */
  lemma FirstOccurrence(a: string, p: string, b: string)
    requires |p| > 0 && !Contains(a, p) && Unbordered(p)
    ensures forall i :: 0 <= i < |a| ==> !OccursAt(a + p + b, p, i)
  {
    var s := a + p + b;
    forall i | 0 <= i < |a|
      ensures !OccursAt(s, p, i)
    {
      if i + |p| <= |a| {
        assert !OccursAt(a, p, i);
        assert s[i..][..|p|] == a[i..][..|p|];
      } else if OccursAt(s, p, i) {
        var d := |a| - i;
        forall j | d <= j < |p|
          ensures p[j] == p[j - d]
        {
          OccurrenceChars(s, p, i, j);
          assert s[i + j] == s[|a| + (j - d)] == p[j - d];
        }
        assert SelfOverlaps(p, d);
      }
    }
  }

  /** Python `sep.join(parts)`. */
  function Join(parts: seq<string>, sep: string): string
  {
    if |parts| == 0 then ""
    else if |parts| == 1 then parts[0]
    else parts[0] + sep + Join(parts[1..], sep)
  }

  /** Joining two non-empty lists puts exactly one separator between their joins. */
  lemma {:induction false} JoinAppend(a: seq<string>, b: seq<string>, sep: string)
    requires |a| > 0 && |b| > 0
    ensures Join(a + b, sep) == Join(a, sep) + sep + Join(b, sep)
    decreases |a|
  {
    if |a| == 1 {
      assert (a + b)[1..] == b;
    } else {
      assert (a + b)[1..] == a[1..] + b;
      JoinAppend(a[1..], b, sep);
    }
  }

  /** A join of a non-empty list starts with its first part. */
  lemma JoinStartsWithFirst(parts: seq<string>, sep: string)
    requires |parts| > 0
    ensures StartsWith(Join(parts, sep), parts[0])
  {
    var j := Join(parts, sep);
    if |parts| > 1 {
      assert j == parts[0] + (sep + Join(parts[1..], sep));
    }
    assert j[..|parts[0]|] == parts[0];
  }

  /** Every part of a join occurs in the joined text. */
  lemma {:induction false} JoinContainsPart(parts: seq<string>, sep: string, i: int)
    requires 0 <= i < |parts|
    ensures Contains(Join(parts, sep), parts[i])
    decreases |parts|
  {
    if i == 0 {
      JoinStartsWithFirst(parts, sep);
      PrefixContained(Join(parts, sep), parts[0]);
    } else {
      var rest := Join(parts[1..], sep);
      JoinContainsPart(parts[1..], sep, i - 1);
      ContainsInContext(parts[0] + sep, rest, "", parts[i]);
      assert Join(parts, sep) == parts[0] + sep + rest + "";
    }
  }

  /** Python's `str` of a text value that may be `None`. */
  function Show(v: Option<string>): string {
    if v.Some? then v.value else "None"
  }

  predicate IsDigit(c: char) {
    '0' <= c <= '9'
  }

  function DigitChar(d: nat): (c: char)
    requires d < 10
    ensures IsDigit(c)
  {
    ('0' as int + d) as char
  }

  /** Python `str(n)` for a non-negative integer: decimal digits, no leading zero. */
  function NatToString(n: nat): (r: string)
    ensures |r| > 0
    ensures forall i :: 0 <= i < |r| ==> IsDigit(r[i])
    ensures r[0] == '0' ==> n == 0
  {
    if n < 10 then [DigitChar(n)] else NatToString(n / 10) + [DigitChar(n % 10)]
  }

  /** The value of a string of decimal digits. */
  function DecimalValue(s: string): nat
    requires forall i :: 0 <= i < |s| ==> IsDigit(s[i])
  {
    if |s| == 0 then 0
    else
      assert IsDigit(s[|s| - 1]);
      DecimalValue(s[..|s| - 1]) * 10 + (s[|s| - 1] as int - '0' as int)
  }

  /** The decimal rendering reads back as the number it renders. */
  lemma {:induction false} NatToStringRoundTrip(n: nat)
    ensures DecimalValue(NatToString(n)) == n
  {
    var r := NatToString(n);
    if n >= 10 {
      NatToStringRoundTrip(n / 10);
      assert r[..|r| - 1] == NatToString(n / 10);
    }
  }
}

=== FILE: visualizer.dfy ===
/**
 Chart construction: the argument checks of `create_visualization` and the way
 each chart kind assigns the columns to roles. The plotting library itself is
 not modelled; a figure is the abstract description handed to it.
 */
module Visualizer {
  import opened Wrappers
  import opened Text
  import opened Records

  datatype ChartKind = Bar | Line | Pie | Scatter

  /** The chart type names the tool accepts, in the order its error message lists them. */
  const KindNames: seq<string> := ["bar", "line", "pie", "scatter"]

  function KindName(k: ChartKind): string {
    match k
    case Bar => "bar"
    case Line => "line"
    case Pie => "pie"
    case Scatter => "scatter"
  }

  /** Reading a chart type name; `None` for anything but the four exact names. */
  function ParseKind(s: string): (k: Option<ChartKind>)
    ensures k.Some? ==> KindName(k.value) == s
    ensures k.None? <==> s !in KindNames
  {
    if s == "bar" then Some(Bar)
    else if s == "line" then Some(Line)
    else if s == "pie" then Some(Pie)
    else if s == "scatter" then Some(Scatter)
    else None
  }

  /** Every kind's name reads back as that kind. */
  lemma ParseKindName(k: ChartKind)
    ensures ParseKind(KindName(k)) == Some(k)
    ensures KindName(k) in KindNames
  {
  }

  /**
   How columns map to chart roles: axes (with optional colour grouping, axis
   labels and point markers) for bar, line and scatter; slice names and
   values for pie.
   */
  datatype Encoding =
    | Axes(x: string, y: string, color: Option<string>, labels: map<string, string>, markers: bool)
    | Slices(names: string, values: string)

  datatype Layout = Layout(template: string, hovermode: string, fontSize: nat, titleFontSize: nat)

  /** The layout every chart receives. */
  const StandardLayout: Layout := Layout("plotly_white", "x unified", 12, 16)

  datatype Figure = Figure(kind: ChartKind, data: seq<Record>, title: string, encoding: Encoding, layout: Layout)

  const NoDataError: string := "Нету данных"

  function UnknownKindError(chartType: string): string {
    "Неизвестный тип графика: " + chartType + ". Доступные: bar, line, pie, scatter"
  }

  /** Axis labels: each of the two columns is shown capitalized. */
  function AxisLabels(x: string, y: string): (labels: map<string, string>)
    ensures labels.Keys == {x, y}
    ensures labels[x] == Capitalize(x) && labels[y] == Capitalize(y)
  {
    map[x := Capitalize(x), y := Capitalize(y)]
  }

  /**
   The tool's `create_visualization`. Empty data is refused first, then an
   unknown chart type; otherwise the figure for the chosen kind.
   */
  function CreateVisualization(data: seq<Record>, chartType: string, title: string,
                               x: string, y: string, color: Option<string>): (r: Result<Figure>)
    ensures |data| == 0 ==> r == Err(NoDataError)
    ensures |data| > 0 && chartType !in KindNames ==> r == Err(UnknownKindError(chartType))
    ensures r.Ok? <==> |data| > 0 && chartType in KindNames
    ensures r.Ok? ==>
      KindName(r.value.kind) == chartType && r.value.data == data
      && r.value.title == title && r.value.layout == StandardLayout
    ensures r.Ok? ==> (r.value.kind == Pie <==> r.value.encoding == Slices(x, y))
    ensures r.Ok? && r.value.kind != Pie ==>
      r.value.encoding == Axes(x, y, color, AxisLabels(x, y), r.value.kind == Line)
  {
    if |data| == 0 then Err(NoDataError)
    else
      match ParseKind(chartType)
      case None => Err(UnknownKindError(chartType))
      case Some(k) =>
        var encoding :=
          if k == Pie then Slices(x, y) else Axes(x, y, color, AxisLabels(x, y), k == Line);
        Ok(Figure(k, data, title, encoding, StandardLayout))
  }

  /** A pie chart ignores the colour column: any two choices give the same figure. */
  lemma PieIgnoresColor(data: seq<Record>, title: string, x: string, y: string, c1: Option<string>, c2: Option<string>)
    ensures CreateVisualization(data, "pie", title, x, y, c1) == CreateVisualization(data, "pie", title, x, y, c2)
  {
  }

  /** Only the line chart marks its points. */
  lemma OnlyLineHasMarkers(data: seq<Record>, chartType: string, title: string, x: string, y: string, color: Option<string>)
    requires CreateVisualization(data, chartType, title, x, y, color).Ok?
    ensures var f := CreateVisualization(data, chartType, title, x, y, color).value;
      (f.encoding.Axes? && f.encoding.markers) <==> chartType == "line"
  {
  }

  /** Empty data is reported whatever chart type was asked for, even an unknown one. */
  lemma EmptyDataCheckedFirst(chartType: string, title: string, x: string, y: string, color: Option<string>)
    ensures CreateVisualization([], chartType, title, x, y, color) == Err(NoDataError)
  {
  }
}

=== FILE: wrappers.dfy ===
/**
 Option and Result datatypes used throughout the model.

 A Python function that may raise is modelled as one returning `Result`:
 `Err(msg)` stands for the exception and `msg` for what `str(e)` gives.
 */
module Wrappers {

  datatype Option<+T> = None | Some(value: T)

  datatype Result<+T> = Ok(value: T) | Err(error: string)
}
